=== FILE: README.md ===
# Resume analyzer: upload, retrieval and match parsing, in Dafny

This project models the decision logic of a small resume analyzer. The
analyzer is a web application that:

- accepts a PDF resume;
- asks a retrieval-augmented question-answering chain five fixed questions about the resume;
- compares the answers with an optional job description;
- parses a score and two text sections out of the model's reply.

A console assistant in the same repository answers free-form questions about
a PDF.

The PDF loader, text splitter, embedder, vector store and language models
are parameters of function type (`Documents.Builder`, `Documents.Chain`,
`Assistant.Stream`). Each returns an `Outcome`: a value, or the text of the
exception it raised. Everything the application itself decides is modelled
and proved about, including:

- which files it admits;
- where an index is cached and when it is rebuilt;
- which sources it reports;
- how it turns query results into summary entries;
- when the job comparison runs;
- how the score and sections are read from the reply;
- when the console loop stops.

Modules:

- `Outcomes`: `Option` and `Outcome`.
- `Text`: the string built-ins the code uses, on ASCII text. These are `lower`, `strip`, `rsplit('.', 1)`, `split(sep)` and substring search.
- `Documents`: retrieved documents, indexes, the chain's output, and the library calls as parameters.
- `IndexCache`: the embeddings cache of `load_or_create_embeddings`. The cache is a map from file name to index.
- `PdfQuery`: `query_pdf` and its result envelope, and a batch of queries against one file.
- `MatchParse`: the score regular expression, declaratively and as a scanner; the `'\n\n'` section split; the job-match record.
- `Assistant`: the console assistant: its source listing, exit check and question loop.
- `ResumeApp`: the upload handler, the file-type check, the category loop, the job-match step and the token estimate of the two generator routes.

The reply to the job comparison is cut at each `'\n\n'` into blocks:

- With three or more blocks, the analysis is block 0 and the recommendations
  are block 1. A reply that opens with a score line, then an analysis block,
  then a recommendations block, therefore gets the score line as its analysis
  and the analysis block as its recommendations (`MatchParse.SampleReplyParse`).
- With fewer than three blocks, the analysis is the whole reply and the
  recommendations are empty. With exactly two blocks the code first sets the
  analysis to block 0 and then overwrites it with the whole reply.

## Model

| member | source | states |
|---|---|---|
| ResumeApp.AllowedFile | app.py:68-69 | a name is admitted exactly when it ends in a dot followed by "pdf" in any letter case |
| ResumeApp.AcceptedNames | app.py:68-69 | "cv.PDF", ".pdf" and "a.b.Pdf" are admitted |
| ResumeApp.RejectedNames | app.py:68-69 | "pdf" (no dot), "cv.pdf.exe" and "cv.pdfx" are refused: only the text after the last dot counts |
| ResumeApp.QuestionsCoverCategories | app.py:122-128 | the five questions name exactly the categories skills, experience, education, projects and summary, each once |
| ResumeApp.CategoryEntry | app.py:133-142 | a success keeps the answer and sources; a failure gives "Error analyzing <category>: <message>" with no sources |
| ResumeApp.AnalyzeCategories | app.py:131-142 | the summary has one key per question; each entry is the entry of that question's result, with the queries run in order through one cache |
| ResumeApp.CategoriesFromStoredIndex | app.py:131-132 | when the file's index is cached, the five queries build nothing, leave the cache as it was, and all answer from the stored index |
| ResumeApp.CategoriesBuildOnce | app.py:131-132 | on a miss with a successful build, the index is built once by the first query and reused by the other four |
| ResumeApp.MatchPrompt | app.py:154-170 | the comparison prompt: the f-string's text with its whitespace, and the five values in its holes; what it contains is stated by MatchPromptCarriesInputs |
| ResumeApp.MatchPromptCarriesInputs | app.py:154-170 | the comparison prompt contains the skills, experience, education and projects answers and the job description |
| ResumeApp.Interleave | app.py:154-170 | filling the holes of a template keeps every value in the result |
| ResumeApp.MatchAnalysis | app.py:147-151 | a failed comparison query leaves score 0 and empty sections; a successful one is parsed |
| ResumeApp.CompareWithJob | app.py:172-189 | the prompt is asked about the saved file like any question; the record is the parse of its answer, or zeros on failure; the score is at most 999 |
| ResumeApp.MatchIfDescribed | app.py:145-151 | a job-match record exists exactly when the stripped description is not empty; without one no query is made and the cache is unchanged; with one it is the parse of the reply to the prompt built from the stripped description |
| ResumeApp.AnalyzeUpload | app.py:119-191 | an admitted upload yields exactly the five categories, each entry from the batch of queries; a job match exists iff the stripped description is non-empty, and then it is the parse of the reply to the prompt built from the skills, experience, education and projects answers, asked after the five queries, and the final cache is the one that query leaves |
| ResumeApp.UploadResume | app.py:104-201 | the three refusal messages are given in their order of checks; analysis happens exactly for a present, non-empty, PDF-named file; a refusal leaves the cache unchanged; an analysed upload has the five categories, each entry from the queries on uploads/<saved name>, and a job match iff the stripped description is non-empty, equal to the parse of the comparison reply; without a job match the final cache is the one the five queries leave, so the new index stays stored |
| ResumeApp.UploadCacheKey | app.py:114-115 | the saved file's cache key is built from the saved name alone, not the upload folder |
| ResumeApp.TokenEstimate | app.py:246 | the recorded token count is a quarter of the prompt length rounded down, and at least one |
| IndexCache.Basename | rag.py:16 | the base name has no '/' and is the suffix of the path after its last '/' |
| IndexCache.CacheKey | rag.py:16 | the cache-file name starts with "embeddings_", ends with ".pkl" and has no '/', so the cache file is in the working directory whatever the document's directory |
| IndexCache.CacheKeyIffBasename | rag.py:16 | two paths share a cache entry exactly when their base names agree |
| IndexCache.BasenameOfJoin | rag.py:16 | the base name of directory + "/" + name is name |
| IndexCache.SameNameSharesEntry | rag.py:16 | files of the same name in different directories share one cache entry |
| IndexCache.LoadOrCreate | rag.py:14-40 | it builds exactly on a miss; a hit returns the stored index untouched; a successful build is stored under the key; a failed one stores nothing; other keys are unchanged |
| IndexCache.HitIgnoresBuilder | rag.py:17-19 | on a hit, neither the builder nor its configuration affects the result |
| IndexCache.BuildThenHit | Hugging_face/rag_module.py:21-46 | after a successful build, the next lookup of any same-named path is a hit returning that index |
| Documents.Inspected | rag.py:90-91 | only the first two source documents are looked at, and none when the list is absent or empty |
| PdfQuery.PageLabel | rag.py:92-94 | a document gets a label exactly when its metadata has a page, and the label is "Page " + that page |
| PdfQuery.PageLabels | rag.py:91-94 | the labels are exactly "Page <page>" for the documents that carry a page |
| PdfQuery.PageSources | rag.py:89-99 | the sources are at most two distinct "Page <page>" labels of the first two documents that have a page |
| PdfQuery.SourcesIgnoreLaterDocs | rag.py:91 | documents after the second never change the sources |
| PdfQuery.SharedPageOneSource | rag.py:99 | two retrieved chunks of the same page give one source |
| PdfQuery.NoUnknownFallback | rag.py:92-93 | "Page unknown" appears only when a document's page is literally "unknown": the fallback is never used |
| PdfQuery.Envelope | rag.py:96-107 | success carries the chain's answer, the page sources and the raw result; an exception becomes a failure with its message |
| PdfQuery.QueryPdf | rag.py:75-107 | a failed index load gives a failure with its message; otherwise the envelope of the chain run on the loaded index with k = 3 |
| PdfQuery.QueryEach | rag.py:75-107 | a batch of queries gives one result per question and builds at most once per question |
| PdfQuery.CachedQueriesReuseIndex | rag.py:17-19 | with the index cached, any batch of queries builds nothing and answers every question from the stored index |
| PdfQuery.BuildOnceThenReuse | rag.py:22-38 | on a miss with a successful build, a batch builds exactly once and stores the index |
| MatchParse.SkipSpaces | app.py:178 | the end of the whitespace run that `\s*` consumes |
| MatchParse.DigitRun | app.py:178 | the greedy `\d{1,3}` run: at most three digits, stopping at a non-digit |
| MatchParse.TailAtIff | app.py:178 | the scanner recognises the tail `\s*\/\s*100` or `\s*\%` exactly where the pattern matches it |
| MatchParse.GroupMatchesIff | app.py:178 | the pattern matches at a position with an n-digit group exactly when n is the greedy digit run and the tail follows it |
| MatchParse.GroupLengthUnique | app.py:178 | at one start position, at most one group length matches |
| MatchParse.ScanMatchIff | app.py:178 | the scanner accepts a position exactly when the pattern matches there |
| MatchParse.SearchFrom | app.py:178 | the search returns the leftmost matching position, or none when no position matches |
| MatchParse.DigitValue | app.py:180 | the value of n digits is below 10^n |
| MatchParse.ExtractScore | app.py:177-180 | the extracted score is never above 999 |
| MatchParse.SearchResultScored | app.py:177-180 | the score is the value of the group of the leftmost, longest match that `re.search` reports |
| MatchParse.NoMatchScoresZero | app.py:147-148 | with no match anywhere the score stays 0 |
| MatchParse.ScoreOfLayout | app.py:178-180 | digits preceded by no digit and followed directly by "%" or "/100" are the score |
| MatchParse.ScoreExampleOverlong | app.py:178 | "1234%" scores 234: the group is not anchored at a word boundary |
| MatchParse.ScoreExampleNoBoundary | app.py:178 | "50/1000" scores 50: nothing has to follow "100" |
| MatchParse.SplitSections | app.py:183-189 | the analysis is a prefix of the reply; with two separate breaks, the analysis ends at the first break, the reply starts with analysis, break, recommendations, break, and neither section holds a break; otherwise the analysis is the whole reply and the recommendations are empty |
| MatchParse.SectionsFromBlocks | app.py:183-187 | with at least three blocks, the sections are blocks 0 and 1 |
| MatchParse.RecommendationsEndAtNextBreak | app.py:183-187 | with two separate breaks, the recommendations are exactly the text from the end of the first break up to the next break |
| MatchParse.SectionsOfLayout | app.py:183-187 | analysis, break, recommendations, break, rest splits back into that analysis and those recommendations |
| MatchParse.SectionsOfLines | app.py:183-187 | two single lines followed by breaks become the two sections |
| MatchParse.TwoBlocksKeepWholeText | app.py:184-189 | with exactly two blocks, the analysis set from block 0 is overwritten by the whole reply, and the recommendations stay empty |
| MatchParse.ParseMatch | app.py:173-189 | the parsed score is at most 999, the analysis is a prefix of the reply, and the recommendations hold no break |
| MatchParse.SampleReplyScore | app.py:177-180 | a reply opening with the line "Match score: 82/100" scores 82 |
| MatchParse.SampleReplySections | app.py:183-187 | a reply of a score line, an analysis block and a recommendations block splits into the score line as analysis and the analysis block as recommendations |
| MatchParse.SampleReplyParse | app.py:173-189 | that sample reply parses to score 82, the score line as analysis, and "Analysis..." as recommendations |
| Text.LowerStr | app.py:69 | lower-casing keeps the length and maps each character through ASCII `lower` |
| Text.LastIndexOf | app.py:69 | the position of the last occurrence of a character, or none exactly when it is absent |
| Text.AfterLast | app.py:69 | the text after the last occurrence: a suffix without that character, preceded by it when shorter than the input |
| Text.LastIndexOfJoin | app.py:69 | in a + c + b with no c in b, the last c is at the length of a, and b is what follows |
| Text.Strip | app.py:145 | the result is the slice of the input between a leading and a trailing run of whitespace; it is empty exactly when the input is all whitespace, and otherwise starts and ends with non-whitespace |
| Text.StripBlank | app.py:145-146 | a blank description strips to empty and a non-blank one does not |
| Text.Find | app.py:183 | the first occurrence of a separator at or after a position, or none when there is no later occurrence |
| Text.Split | app.py:183 | `str.split(sep)`: at least one piece, and the first piece is a prefix of the text; SplitJoin rebuilds the text from the pieces, SplitPiecesFree shows no piece holds the separator, and SplitTwoIffContains and SplitThreeIffTwoApart count the pieces |
| Text.SplitJoin | app.py:183 | joining the pieces of a split with the separator gives back the text |
| Text.SplitPiecesFree | app.py:183 | no piece of a split contains the separator |
| Text.SplitTwoIffContains | app.py:184 | a split has at least two pieces exactly when the separator occurs |
| Text.SplitThreeIffTwoApart | app.py:186 | a split has at least three pieces exactly when the separator occurs twice without overlap |
| Assistant.SourceLabel | Hugging_face/rag_module.py:106-107 | a document gets a label exactly when its metadata has a source; the label is "Page " + its page, or "Page unknown" when it has no page |
| Assistant.Candidates | Hugging_face/rag_module.py:105-107 | the labels are exactly "Page <page>" for the inspected documents that carry a source |
| Assistant.Dedup | Hugging_face/rag_module.py:104-110 | the printed labels have no repeats and are exactly the candidate labels |
| Assistant.DedupKeepsFirstOccurrenceOrder | Hugging_face/rag_module.py:108-110 | the labels are printed in the order of their first occurrence |
| Assistant.SourceListing | Hugging_face/rag_module.py:102-110 | a listing is printed exactly when source documents are present; it holds at most two distinct labels of the first two documents that carry a source |
| Assistant.ListSources | Hugging_face/rag_module.py:102-110 | the printing loop, with its seen-set, produces exactly that listing |
| Assistant.SameLabelPrintedOnce | Hugging_face/rag_module.py:108-110 | two documents with the same label print it once |
| Assistant.DistinctLabelsInOrder | Hugging_face/rag_module.py:105-110 | two documents with different labels print both, in retrieval order |
| Assistant.IsExitCommand | Hugging_face/rag_module.py:128 | the value returned by the console prompt, lower-cased, is "exit", "quit" or "q"; its consequences are stated by ExitCommandShape, PaddedInputContinues and ExitExamples |
| Assistant.ExitCommandShape | Hugging_face/rag_module.py:128 | only one-letter or four-letter inputs made of letters end the session |
| Assistant.PaddedInputContinues | Hugging_face/rag_module.py:128 | the comparison on this line does not trim: a value with surrounding whitespace fails it |
| Assistant.ExitExamples | Hugging_face/rag_module.py:128 | the comparison accepts the values "QUIT", "Exit" and "q" and rejects " q", "exit ", "" and "bye" |
| Assistant.AskQuestion | Hugging_face/rag_module.py:82-114 | a chain failure shows its message; when the chain succeeds, a stream failure shows the stream's message, and a successful stream shows the streamed reply to "<question> Context: <answer>" with the source listing of the chain's documents |
| Assistant.Session | Hugging_face/rag_module.py:126-131 | every input before the first exit command is answered in order, and nothing from the exit command on is |
| Assistant.InteractiveMode | Hugging_face/rag_module.py:117-131 | the index is loaded or built once; a failure there ends the program with its message; otherwise the inputs before the first exit command are answered in order from that one index, and, in the model, answering stops only at an exit command or the end of input (see Left out for the markup crash) |

## Left out

- PDF loading, the chunking (`RecursiveCharacterTextSplitter` with sizes 1000/200, `SemanticChunker`), embedding and the FAISS store are `Builder` parameters. They are library code; only the configuration values are recorded.
- The retrieval QA chain with its prompt template, and the Ollama chat and stream calls, are the `Chain` and `Stream` parameters. They are calls into a language model.
- Pickling is left out, and the existence of the embeddings file is "key in the cache map". Disk I/O and unpickling errors are outside the model.
- Index lookups are keyed by base name only, as in the code. A resume deleted after analysis keeps its cache entry, as on disk.
- `uuid4`, `secure_filename`, saving and removing the upload, and the 16 MB request limit are left out. They are web-framework and file-system effects, so the saved name is a parameter.
- The metrics middleware, the Prometheus counters, the simulation thread and the page routes are left out. None of them affects a result.
- The rich-console output is left out, apart from the crash path recorded under Assistant.Session / Assistant.InteractiveMode below.
- The `job_generator` and `interview_questions` routes are left out apart from the token estimate they record. The rest of them is one language-model call each.
- `lower`, `strip`, `\s` and `\d` are modelled on ASCII only. Python's Unicode case mapping and Unicode whitespace and digits are not modelled.
- The `hasattr(doc, 'metadata')` test is left out, because every retrieved document has metadata. Metadata values are modelled as their text form.
- The 'Unknown error' fallback of the category loop is left out. A failed query always carries a message, so the fallback is unreachable.
- End of console input (an exception in the prompt) is modelled as the end of the input sequence.
- The console prompt (`Prompt.ask` of the `rich` library) strips each typed line before returning it. That is library code, so the session's inputs are the already-stripped values. A typed " q" therefore ends the session, although the comparison on line 128 does not trim.
- Assistant.Session / Assistant.InteractiveMode: the console echoes each question through rich markup outside the `try` (Hugging_face/rag_module.py:83), so a question holding a closing tag that matches no open tag, such as `a [/] b`, raises a markup error that nothing catches, and the program ends on an input that is not an exit command. A streamed chunk holding such a tag raises at line 98, and the handler's error message at line 114 quotes it and raises again. Rendering is library code, so the model treats every echo and print as succeeding.
- IndexCache.Basename: paths are POSIX; on Windows `os.path.basename` also splits on `\`, which the model does not.
- A failure part-way through a stream is modelled as the whole stream failing. The text printed before the failure is not modelled.
- `summary['job_match']` is modelled as a separate `jobMatch` field of the summary, not as a sixth key of the category map, so that the map keeps one entry type.
- PdfQuery.PageSources: the sources are a set, because `list(set(...))` leaves their order unspecified.
- MatchParse.ExtractScore: its own contract only bounds the score; the value of the score is stated by SearchResultScored and NoMatchScoresZero.
- MatchParse.ParseMatch: its own contract bounds the fields; their exact values are stated by SplitSections, SectionsFromBlocks and the SampleReply lemmas.

=== FILE: assistant.dfy ===
/** The interactive command-line assistant: it builds or loads the index once
    (semantic chunking, the library's default embedding model), then answers
    questions until an exit command, printing at most two distinct page
    sources per answer and reporting errors without ending the session. */
module Assistant {
  import opened Outcomes
  import opened Text
  import opened Documents
  import opened IndexCache

  const AssistantConfig: IndexConfig := IndexConfig(SemanticChunks, LibraryDefaultModel)

  // ---------------------------------------------------------------------------
  // Source listing

  /** The label printed for a document: only documents with a `source` entry
      get one, and a missing page shows as `unknown`. */
  function SourceLabel(d: Doc): (tag: Option<string>)
    ensures tag.Some? <==> "source" in d.metadata
    ensures tag.Some? && "page" in d.metadata ==> tag.value == "Page " + d.metadata["page"]
    ensures tag.Some? && "page" !in d.metadata ==> tag.value == "Page unknown"
  {
    if "source" in d.metadata then Some("Page " + GetOr(d.metadata, "page", "unknown")) else None
  }

  /** The labels of `docs` in retrieval order, duplicates included. */
  function Candidates(docs: seq<Doc>): (labels: seq<string>)
    ensures |labels| <= |docs|
    ensures forall x :: x in labels <==> exists i :: 0 <= i < |docs| && SourceLabel(docs[i]) == Some(x)
  {
    if |docs| == 0 then []
    else
      var init := docs[..|docs| - 1];
      var labels := Candidates(init);
      assert forall i :: 0 <= i < |docs| - 1 ==> docs[i] == init[i];
      match SourceLabel(docs[|docs| - 1])
      case Some(l) => labels + [l]
      case None => labels
  }

  function LabelSeq(d: Doc): seq<string> {
    match SourceLabel(d)
    case Some(l) => [l]
    case None => []
  }

  lemma CandidatesStep(docs: seq<Doc>, d: Doc)
    ensures Candidates(docs + [d]) == Candidates(docs) + LabelSeq(d)
  {
    assert (docs + [d])[..|docs|] == docs;
  }

  predicate NoDuplicates<T(==)>(xs: seq<T>) {
    forall i, j :: 0 <= i < j < |xs| ==> xs[i] != xs[j]
  }

  /** The position of the first occurrence of `x` in `xs`. */
  function FirstIndex<T(==)>(xs: seq<T>, x: T): (k: nat)
    requires x in xs
    ensures k < |xs| && xs[k] == x && x !in xs[..k]
  {
    if xs[0] == x then 0
    else
      var k := FirstIndex(xs[1..], x);
      assert xs[..k + 1] == [xs[0]] + xs[1..][..k];
      k + 1
  }

  lemma FirstIndexInPrefix<T>(xs: seq<T>, n: nat, x: T)
    requires n <= |xs| && x in xs[..n]
    ensures FirstIndex(xs, x) == FirstIndex(xs[..n], x)
  {
    var k := FirstIndex(xs[..n], x);
    var k' := FirstIndex(xs, x);
    assert xs[..n][..k] == xs[..k];
  }

  /** `xs` with every element after its first occurrence dropped. */
  function Dedup(xs: seq<string>): (r: seq<string>)
    ensures |r| <= |xs|
    ensures NoDuplicates(r)
    ensures forall x :: x in r <==> x in xs
  {
    if |xs| == 0 then []
    else
      var d := Dedup(xs[..|xs| - 1]);
      var last := xs[|xs| - 1];
      assert xs == xs[..|xs| - 1] + [last];
      if last in d then d else d + [last]
  }

  /** The kept elements appear in the order of their first occurrences. */
  lemma {:induction false} DedupKeepsFirstOccurrenceOrder(xs: seq<string>)
    ensures forall i, j :: 0 <= i < j < |Dedup(xs)| ==> FirstIndex(xs, Dedup(xs)[i]) < FirstIndex(xs, Dedup(xs)[j])
  {
    if |xs| > 0 {
      var init := xs[..|xs| - 1];
      var last := xs[|xs| - 1];
      var d := Dedup(init);
      DedupKeepsFirstOccurrenceOrder(init);
      assert xs == init + [last];
      forall i | 0 <= i < |d|
        ensures FirstIndex(xs, d[i]) == FirstIndex(init, d[i]) < |init|
      {
        FirstIndexInPrefix(xs, |xs| - 1, d[i]);
      }
      forall i, j | 0 <= i < j < |d|
        ensures FirstIndex(xs, d[i]) < FirstIndex(xs, d[j])
      {
        assert FirstIndex(init, d[i]) < FirstIndex(init, d[j]);
      }
      if last in d {
        assert Dedup(xs) == d;
      } else {
        assert last !in init;
        assert FirstIndex(xs, last) == |xs| - 1;
        var r := d + [last];
        assert Dedup(xs) == r;
        forall i, j | 0 <= i < j < |r|
          ensures FirstIndex(xs, r[i]) < FirstIndex(xs, r[j])
        {
          assert r[i] == d[i];
          if j < |d| {
            assert r[j] == d[j];
          } else {
            assert r[j] == last;
          }
        }
      }
    }
  }

  lemma DedupStep(xs: seq<string>, x: string)
    ensures Dedup(xs + [x]) == if x in Dedup(xs) then Dedup(xs) else Dedup(xs) + [x]
  {
    assert (xs + [x])[..|xs|] == xs;
  }

  /** What the assistant prints under "Sources:" for one answer, or `None`
      when the header is not printed at all. */
  function SourceListing(sourceDocuments: Option<seq<Doc>>): (listing: Option<seq<string>>)
    ensures listing.None? <==> (sourceDocuments.None? || sourceDocuments.value == [])
    ensures listing.Some? ==> |listing.value| <= 2 && NoDuplicates(listing.value)
    ensures listing.Some? ==> var docs := Inspected(sourceDocuments);
              forall x :: x in listing.value <==> exists i :: 0 <= i < |docs| && SourceLabel(docs[i]) == Some(x)
  {
    if sourceDocuments.None? || sourceDocuments.value == [] then None
    else Some(Dedup(Candidates(Inspected(sourceDocuments))))
  }

  /** The printing loop: walk the first two documents, remembering the labels
      already printed in a set, and print each new label once. */
  method ListSources(sourceDocuments: Option<seq<Doc>>) returns (listing: Option<seq<string>>)
    ensures listing == SourceListing(sourceDocuments)
  {
    if sourceDocuments.None? || sourceDocuments.value == [] {
      return None;
    }
    var docs := Inspected(sourceDocuments);
    var printed: seq<string> := [];
    var seen: set<string> := {};
    var i := 0;
    while i < |docs|
      invariant 0 <= i <= |docs|
      invariant printed == Dedup(Candidates(docs[..i]))
      invariant forall x :: x in seen <==> x in printed
    {
      ListStep(docs, i);
      var shown := SourceLabel(docs[i]);
      if shown.Some? && shown.value !in seen {
        printed := printed + [shown.value];
        seen := seen + {shown.value};
      }
      i := i + 1;
    }
    assert docs[..i] == docs;
    listing := Some(printed);
  }

  /** One step of the printing loop: a label not yet printed is appended. */
  lemma ListStep(docs: seq<Doc>, i: nat)
    requires i < |docs|
    ensures var before := Dedup(Candidates(docs[..i]));
            var shown := SourceLabel(docs[i]);
            Dedup(Candidates(docs[..i + 1]))
            == if shown.Some? && shown.value !in before then before + [shown.value] else before
  {
    assert docs[..i + 1] == docs[..i] + [docs[i]];
    CandidatesStep(docs[..i], docs[i]);
    var shown := SourceLabel(docs[i]);
    if shown.Some? {
      DedupStep(Candidates(docs[..i]), shown.value);
    } else {
      assert Candidates(docs[..i]) + LabelSeq(docs[i]) == Candidates(docs[..i]);
    }
  }

  /** When the first two documents carry the same label it is printed once. */
  lemma SameLabelPrintedOnce(docs: seq<Doc>)
    requires |docs| >= 2
    requires SourceLabel(docs[0]).Some? && SourceLabel(docs[0]) == SourceLabel(docs[1])
    ensures SourceListing(Some(docs)) == Some([SourceLabel(docs[0]).value])
  {
    var l := SourceLabel(docs[0]).value;
    assert Inspected(Some(docs)) == [] + [docs[0]] + [docs[1]];
    CandidatesStep([], docs[0]);
    CandidatesStep([docs[0]], docs[1]);
    assert Candidates(Inspected(Some(docs))) == [l, l];
    DedupStep([], l);
    assert [] + [l] == [l];
    assert Dedup([l]) == [l];
    DedupStep([l], l);
    assert [l] + [l] == [l, l];
  }

  /** Two different labels keep their retrieval order. */
  lemma DistinctLabelsInOrder(docs: seq<Doc>)
    requires |docs| >= 2
    requires SourceLabel(docs[0]).Some? && SourceLabel(docs[1]).Some?
    requires SourceLabel(docs[0]) != SourceLabel(docs[1])
    ensures SourceListing(Some(docs)) == Some([SourceLabel(docs[0]).value, SourceLabel(docs[1]).value])
  {
    var l0, l1 := SourceLabel(docs[0]).value, SourceLabel(docs[1]).value;
    assert Inspected(Some(docs)) == [] + [docs[0]] + [docs[1]];
    CandidatesStep([], docs[0]);
    CandidatesStep([docs[0]], docs[1]);
    assert Candidates(Inspected(Some(docs))) == [l0, l1];
    DedupStep([], l0);
    assert [] + [l0] == [l0];
    assert Dedup([l0]) == [l0];
    DedupStep([l0], l1);
    assert [l0] + [l1] == [l0, l1];
  }

  // ---------------------------------------------------------------------------
  // Exit command

  const ExitCommands: set<string> := {"exit", "quit", "q"}

  /** The exit test applied to a line as the console prompt returns it: the
      value, lower-cased, is an exit command. The test itself does not trim;
      the prompt has already stripped the typed line. */
  predicate IsExitCommand(input: string) {
    LowerStr(input) in ExitCommands
  }

  /** Only inputs of length one or four can end the session, and each of their
      characters is a letter of an exit command in either case. */
  lemma ExitCommandShape(input: string)
    requires IsExitCommand(input)
    ensures |input| == 1 || |input| == 4
    ensures forall i :: 0 <= i < |input| ==> 'A' <= input[i] <= 'Z' || 'a' <= input[i] <= 'z'
  {
    var low := LowerStr(input);
    forall i | 0 <= i < |input|
      ensures 'A' <= input[i] <= 'Z' || 'a' <= input[i] <= 'z'
    {
      assert 'a' <= low[i] <= 'z';
    }
  }

  /** The comparison does not trim: a value with surrounding whitespace fails
      it. */
  lemma PaddedInputContinues(input: string, c: char)
    requires IsSpace(c)
    ensures !IsExitCommand([c] + input) && !IsExitCommand(input + [c])
  {
    assert LowerStr([c] + input)[0] == c;
    assert LowerStr(input + [c])[|input|] == c;
  }

  lemma ExitExamples()
    ensures IsExitCommand("QUIT") && IsExitCommand("Exit") && IsExitCommand("q")
    ensures !IsExitCommand(" q") && !IsExitCommand("exit ") && !IsExitCommand("") && !IsExitCommand("bye")
  {
    assert LowerStr("QUIT") == "quit";
    assert LowerStr("Exit") == "exit";
    assert LowerStr("q") == "q";
    PaddedInputContinues("q", ' ');
    PaddedInputContinues("exit", ' ');
    assert LowerStr("bye") == "bye";
  }

  // ---------------------------------------------------------------------------
  // Question loop

  /** The streamed reply of the chat model to a prompt, concatenated. */
  type Stream = string -> Outcome<string>

  /** What one question shows: the streamed reply and the source listing, or
      the error text. */
  datatype Turn = Reply(shown: string, sources: Option<seq<string>>) | ErrorShown(message: string)

  /** Answer one question: run the chain, stream a reply to the question with
      the chain's answer appended as context, then list the sources. A failure
      of either model call is shown as an error. */
  function AskQuestion(index: Index, question: string, chain: Chain, stream: Stream): (t: Turn)
    ensures chain(index, TopK, question).Fail? ==> t == ErrorShown(chain(index, TopK, question).message)
    ensures t.Reply? ==> chain(index, TopK, question).Ok?
    ensures t.Reply? ==> t.sources == SourceListing(chain(index, TopK, question).value.sourceDocuments)
    ensures t.Reply? ==> stream(question + " Context: " + chain(index, TopK, question).value.result) == Ok(t.shown)
    ensures chain(index, TopK, question).Ok? ==>
              var out := chain(index, TopK, question).value;
              var reply := stream(question + " Context: " + out.result);
              && (reply.Fail? ==> t == ErrorShown(reply.message))
              && (reply.Ok? ==> t == Reply(reply.value, SourceListing(out.sourceDocuments)))
  {
    match chain(index, TopK, question)
    case Fail(e) => ErrorShown(e)
    case Ok(out) =>
      match stream(question + " Context: " + out.result)
      case Fail(e) => ErrorShown(e)
      case Ok(shown) => Reply(shown, SourceListing(out.sourceDocuments))
  }

  /** Read inputs until an exit command: every input before it is answered,
      errors included, and nothing after it is. Running out of inputs ends the
      session without an exit command. `inputs` are the values the console
      prompt returns, so each is already stripped of surrounding whitespace.
      Echoing and printing are taken to succeed, so the markup errors that can
      end the console program early are not part of this model. */
  method Session(index: Index, inputs: seq<string>, chain: Chain, stream: Stream) returns (turns: seq<Turn>, quit: bool)
    ensures |turns| <= |inputs|
    ensures forall i :: 0 <= i < |turns| ==> !IsExitCommand(inputs[i])
    ensures forall i :: 0 <= i < |turns| ==> turns[i] == AskQuestion(index, inputs[i], chain, stream)
    ensures quit ==> |turns| < |inputs| && IsExitCommand(inputs[|turns|])
    ensures !quit ==> |turns| == |inputs|
  {
    turns := [];
    quit := false;
    var i := 0;
    while i < |inputs|
      invariant 0 <= i <= |inputs| && |turns| == i
      invariant forall j :: 0 <= j < i ==> !IsExitCommand(inputs[j])
      invariant forall j :: 0 <= j < i ==> turns[j] == AskQuestion(index, inputs[j], chain, stream)
    {
      if IsExitCommand(inputs[i]) {
        quit := true;
        return;
      }
      turns := turns + [AskQuestion(index, inputs[i], chain, stream)];
      i := i + 1;
    }
  }

  /** Start the assistant on a PDF: load or build its index once (a failure
      here ends the program), then run the question loop on that index. */
  method InteractiveMode(cache: Cache, path: string, build: Builder, inputs: seq<string>, chain: Chain, stream: Stream)
    returns (outcome: Outcome<seq<Turn>>, cache': Cache)
    ensures var lookup := LoadOrCreate(cache, path, AssistantConfig, build);
            && cache' == lookup.cache
            && (lookup.index.Fail? ==> outcome == Fail(lookup.index.message))
            && (lookup.index.Ok? ==> outcome.Ok? && |outcome.value| <= |inputs|)
            && (lookup.index.Ok? ==> forall i :: 0 <= i < |outcome.value| ==>
                  outcome.value[i] == AskQuestion(lookup.index.value, inputs[i], chain, stream))
    ensures outcome.Ok? ==> forall i :: 0 <= i < |outcome.value| ==> !IsExitCommand(inputs[i])
    ensures outcome.Ok? && |outcome.value| < |inputs| ==> IsExitCommand(inputs[|outcome.value|])
  {
    var lookup := LoadOrCreate(cache, path, AssistantConfig, build);
    cache' := lookup.cache;
    match lookup.index {
      case Fail(e) =>
        outcome := Fail(e);
      case Ok(index) =>
        var turns, _ := Session(index, inputs, chain, stream);
        outcome := Ok(turns);
    }
  }
}

=== FILE: documents.dfy ===
/** The values that flow between the retrieval library and the handlers: retrieved
    documents with their metadata, the opaque vector index, the output of the
    question-answering chain, and the configuration an index is built with. */
module Documents {
  import opened Outcomes

  /** Document metadata as the PDF loader fills it (`source`, `page`, ...),
      with every value already rendered as text. */
  type Metadata = map<string, string>

  datatype Doc = Doc(content: string, metadata: Metadata)

  /** A vector store. Its search structure belongs to the library; the model
      only needs to tell two stores apart. */
  datatype Index = Index(passages: seq<Doc>)

  /** How the loaded pages are cut into passages before embedding. */
  datatype Splitter =
    | CharacterWindows(chunkSize: nat, overlap: nat)
    | SemanticChunks

  /** Which sentence-embedding model turns passages into vectors. */
  datatype Embedder = NamedModel(name: string) | LibraryDefaultModel

  datatype IndexConfig = IndexConfig(splitter: Splitter, embedder: Embedder)

  /** What the question-answering chain returns: the answer under `result`
      and, when present, the retrieved documents under `source_documents`. */
  datatype ChainOutput = ChainOutput(result: string, sourceDocuments: Option<seq<Doc>>)

  /** Load the PDF at a path, split it and embed it into a new index; a
      failure carries the text of the exception. */
  type Builder = (string, IndexConfig) -> Outcome<Index>

  /** Run the retrieval chain over an index with a number of passages to
      retrieve and a question. */
  type Chain = (Index, nat, string) -> Outcome<ChainOutput>

  /** The number of passages the retriever hands to the model. */
  const TopK: nat := 3

  /** `metadata.get(key, default)`. */
  function GetOr(metadata: Metadata, key: string, default: string): string {
    if key in metadata then metadata[key] else default
  }

  /** The documents a source listing looks at: the first two of
      `source_documents` when that list is present and non-empty, none otherwise. */
  function Inspected(sourceDocuments: Option<seq<Doc>>): (docs: seq<Doc>)
    ensures |docs| <= 2
    ensures sourceDocuments.None? ==> docs == []
    ensures sourceDocuments.Some? ==> |docs| == if |sourceDocuments.value| < 2 then |sourceDocuments.value| else 2
    ensures sourceDocuments.Some? ==> docs == sourceDocuments.value[..|docs|]
  {
    match sourceDocuments
    case None => []
    case Some(all) => if |all| <= 2 then all else all[..2]
  }
}

=== FILE: index_cache.dfy ===
/** The embedding cache shared by both entry points: one stored index per file
    name, looked up before anything is loaded or embedded. The store on disk is
    a map from cache-file name to index. */
module IndexCache {
  import opened Outcomes
  import opened Text
  import opened Documents

  type Cache = map<string, Index>

  const KeyPrefix: string := "embeddings_"
  const KeySuffix: string := ".pkl"

  /** `os.path.basename` with `/` as the separator: the longest suffix of the
      path without a `/`. */
  function Basename(path: string): (name: string)
    ensures '/' !in name
    ensures |name| <= |path| && name == path[|path| - |name|..]
    ensures |name| < |path| ==> path[|path| - |name| - 1] == '/'
  {
    AfterLast(path, '/')
  }

  /** The cache-file name for a document path. Whatever directory the document
      is in, the cache file is named in the working directory: the name has no
      `/` and sits between the fixed prefix and suffix. */
  function CacheKey(path: string): (key: string)
    ensures |key| >= |KeyPrefix| + |KeySuffix|
    ensures key[..|KeyPrefix|] == KeyPrefix && key[|key| - |KeySuffix|..] == KeySuffix
    ensures '/' !in key
  {
    var name := Basename(path);
    assert '/' !in KeyPrefix && '/' !in KeySuffix;
    AbsentFromJoin(KeyPrefix, name, KeySuffix, '/');
    KeyPrefix + name + KeySuffix
  }

  /** The two ends of `a + b + c` are `a` and `c`, and a character in none of
      the parts is not in the whole. */
  lemma AbsentFromJoin<T>(a: seq<T>, b: seq<T>, c: seq<T>, x: T)
    requires x !in a && x !in b && x !in c
    ensures (a + b + c)[..|a|] == a && (a + b + c)[|a + b|..] == c
    ensures x !in a + b + c
  {
  }

  /** Two paths share a cache entry exactly when their base names agree. */
  lemma CacheKeyIffBasename(p: string, q: string)
    ensures CacheKey(p) == CacheKey(q) <==> Basename(p) == Basename(q)
  {
    if CacheKey(p) == CacheKey(q) {
      var a, b := Basename(p), Basename(q);
      assert |a| == |b|;
      assert a == CacheKey(p)[|KeyPrefix|..|KeyPrefix| + |a|];
      assert b == CacheKey(q)[|KeyPrefix|..|KeyPrefix| + |b|];
    }
  }

  /** The base name of `dir/name` is `name`, whatever the directory. */
  lemma BasenameOfJoin(dir: string, name: string)
    requires '/' !in name
    ensures Basename(dir + "/" + name) == name
  {
    assert dir + "/" + name == dir + ['/'] + name;
    LastIndexOfJoin(dir, '/', name);
  }

  /** The same file name uploaded from two directories hits the same entry. */
  lemma SameNameSharesEntry(dir1: string, dir2: string, name: string)
    requires '/' !in name
    ensures CacheKey(dir1 + "/" + name) == CacheKey(dir2 + "/" + name)
  {
    BasenameOfJoin(dir1, name);
    BasenameOfJoin(dir2, name);
  }

  /** One lookup: the index it yields, the cache afterwards, and whether the
      builder ran. */
  datatype Lookup = Lookup(index: Outcome<Index>, cache: Cache, built: bool)

  /** Return the stored index when the cache has an entry for the path's key;
      otherwise build one, store it under the key when the build succeeds, and
      return it. A failed build stores nothing. */
  function LoadOrCreate(cache: Cache, path: string, config: IndexConfig, build: Builder): (r: Lookup)
    ensures r.built <==> CacheKey(path) !in cache
    ensures !r.built ==> r.index == Ok(cache[CacheKey(path)]) && r.cache == cache
    ensures r.built ==> r.index == build(path, config)
    ensures r.index.Ok? ==> CacheKey(path) in r.cache && r.cache[CacheKey(path)] == r.index.value
    ensures r.index.Fail? ==> r.cache == cache
    ensures forall k :: k != CacheKey(path) ==> (k in r.cache <==> k in cache)
    ensures forall k :: k != CacheKey(path) && k in cache ==> r.cache[k] == cache[k]
  {
    var key := CacheKey(path);
    if key in cache then Lookup(Ok(cache[key]), cache, false)
    else
      match build(path, config)
      case Ok(index) => Lookup(Ok(index), cache[key := index], true)
      case Fail(e) => Lookup(Fail(e), cache, true)
  }

  /** On a hit neither the builder nor the configuration matters. */
  lemma HitIgnoresBuilder(cache: Cache, path: string, c1: IndexConfig, c2: IndexConfig, b1: Builder, b2: Builder)
    requires CacheKey(path) in cache
    ensures LoadOrCreate(cache, path, c1, b1) == LoadOrCreate(cache, path, c2, b2)
  {
  }

  /** After a successful build, the next lookup of any path with the same base
      name is a hit that returns the index just built. */
  lemma BuildThenHit(cache: Cache, path: string, other: string, config: IndexConfig, config': IndexConfig, build: Builder, build': Builder)
    requires Basename(other) == Basename(path)
    requires LoadOrCreate(cache, path, config, build).index.Ok?
    ensures var first := LoadOrCreate(cache, path, config, build);
            LoadOrCreate(first.cache, other, config', build') == Lookup(first.index, first.cache, false)
  {
    CacheKeyIffBasename(path, other);
  }
}

=== FILE: match_parse.dfy ===
/** Parsing of the job-match answer: the score pattern
    `(\d{1,3})(?:\s*\/\s*100|\s*\%)` under `re.search`, and the blank-line
    section split that fills the analysis and recommendations. */
module MatchParse {
  import opened Outcomes
  import opened Text

  // ---------------------------------------------------------------------------
  // The score pattern, stated as the regular expression means it

  /** `s[a..b]` is a run of whitespace (what `\s*` may consume). */
  ghost predicate SpaceRun(s: string, a: int, b: int) {
    0 <= a <= b <= |s| && forall m :: a <= m < b ==> IsSpace(s[m])
  }

  /** The non-capturing tail `\s*\/\s*100|\s*\%` matches starting at `j`. */
  ghost predicate TailMatchesAt(s: string, j: int) {
    exists k :: SpaceRun(s, j, k) && k < |s| && (s[k] == '%' || (s[k] == '/' && HundredAfter(s, k + 1)))
  }

  /** `\s*100` matches starting at `j`. */
  ghost predicate HundredAfter(s: string, j: int) {
    exists m :: SpaceRun(s, j, m) && m + 3 <= |s| && s[m..m + 3] == "100"
  }

  /** The whole pattern matches at `i` with a group of `n` digits. */
  ghost predicate GroupMatchesAt(s: string, i: int, n: int) {
    1 <= n <= 3 && 0 <= i && i + n <= |s| && AllDigits(s[i..i + n]) && TailMatchesAt(s, i + n)
  }

  /** What `re.search` reports: the leftmost start, and there the longest digit
      group (the greedy `\d{1,3}` is tried longest first). */
  ghost predicate IsSearchResult(s: string, i: int, n: int) {
    && GroupMatchesAt(s, i, n)
    && (forall i', n' :: 0 <= i' < i ==> !GroupMatchesAt(s, i', n'))
    && (forall n' :: n < n' <= 3 ==> !GroupMatchesAt(s, i, n'))
  }

  ghost predicate NoMatch(s: string) {
    forall i, n :: !GroupMatchesAt(s, i, n)
  }

  // ---------------------------------------------------------------------------
  // A deterministic scanner for the same pattern

  /** The end of the whitespace run starting at `j`. */
  function SkipSpaces(s: string, j: nat): (k: nat)
    requires j <= |s|
    ensures j <= k <= |s|
    ensures forall m :: j <= m < k ==> IsSpace(s[m])
    ensures k < |s| ==> !IsSpace(s[k])
    decreases |s| - j
  {
    if j < |s| && IsSpace(s[j]) then SkipSpaces(s, j + 1) else j
  }

  /** The number of digits starting at `i`, at most three. */
  function DigitRun(s: string, i: nat): (n: nat)
    requires i <= |s|
    ensures n <= 3 && i + n <= |s|
    ensures AllDigits(s[i..i + n])
    ensures n < 3 && i + n < |s| ==> !IsDigit(s[i + n])
  {
    if i < |s| && IsDigit(s[i]) then
      if i + 1 < |s| && IsDigit(s[i + 1]) then
        if i + 2 < |s| && IsDigit(s[i + 2]) then 3 else 2
      else 1
    else 0
  }

  /** The tail check after skipping whitespace once: `%`, or `/` followed by
      optional whitespace and `100`. */
  predicate TailAt(s: string, j: nat)
    requires j <= |s|
  {
    var k := SkipSpaces(s, j);
    k < |s| && (s[k] == '%' || (s[k] == '/' && var m := SkipSpaces(s, k + 1); m + 3 <= |s| && s[m..m + 3] == "100"))
  }

  lemma SkipSpacesUnique(s: string, j: nat, k: int)
    requires j <= |s| && SpaceRun(s, j, k) && k < |s| && !IsSpace(s[k])
    ensures SkipSpaces(s, j) == k
    decreases |s| - j
  {
    if j < k {
      SkipSpacesUnique(s, j + 1, k);
    }
  }

  /** Backtracking into `\s*` never helps, so the scanner's tail check agrees
      with the pattern. */
  lemma TailAtIff(s: string, j: nat)
    requires j <= |s|
    ensures TailAt(s, j) <==> TailMatchesAt(s, j)
  {
    if TailAt(s, j) {
      TailAtMatches(s, j);
    }
    if TailMatchesAt(s, j) {
      TailMatchesTailAt(s, j);
    }
  }

  lemma TailAtMatches(s: string, j: nat)
    requires j <= |s| && TailAt(s, j)
    ensures TailMatchesAt(s, j)
  {
    var k := SkipSpaces(s, j);
    assert SpaceRun(s, j, k);
    if s[k] == '/' {
      var m := SkipSpaces(s, k + 1);
      assert SpaceRun(s, k + 1, m);
      assert HundredAfter(s, k + 1);
    }
  }

  lemma TailMatchesTailAt(s: string, j: nat)
    requires j <= |s| && TailMatchesAt(s, j)
    ensures TailAt(s, j)
  {
    var k :| SpaceRun(s, j, k) && k < |s| && (s[k] == '%' || (s[k] == '/' && HundredAfter(s, k + 1)));
    TailFrom(s, j, k);
  }

  lemma TailFrom(s: string, j: nat, k: nat)
    requires j <= k < |s| && SpaceRun(s, j, k)
    requires s[k] == '%' || (s[k] == '/' && HundredAfter(s, k + 1))
    ensures TailAt(s, j)
  {
    SkipSpacesUnique(s, j, k);
    if s[k] == '/' {
      HundredAfterIff(s, k + 1);
    }
  }

  lemma HundredAfterIff(s: string, j: nat)
    requires j <= |s| && HundredAfter(s, j)
    ensures var m := SkipSpaces(s, j); m + 3 <= |s| && s[m..m + 3] == "100"
  {
    var m :| SpaceRun(s, j, m) && m + 3 <= |s| && s[m..m + 3] == "100";
    assert s[m] == '1';
    SkipSpacesUnique(s, j, m);
  }

  /** The pattern matches at `i` exactly when the whole digit run there is
      followed by the tail; no shorter group can match, since a digit is never
      part of the tail. */
  lemma GroupMatchesIff(s: string, i: nat, n: int)
    requires i <= |s|
    ensures GroupMatchesAt(s, i, n) <==> n == DigitRun(s, i) && n >= 1 && TailAt(s, i + n)
  {
    if GroupMatchesAt(s, i, n) {
      GroupMatchIsScan(s, i, n);
    }
    if n == DigitRun(s, i) && n >= 1 && TailAt(s, i + n) {
      TailAtMatches(s, i + n);
    }
  }

  lemma GroupMatchIsScan(s: string, i: nat, n: int)
    requires i <= |s| && GroupMatchesAt(s, i, n)
    ensures n == DigitRun(s, i) && TailAt(s, i + n)
  {
    TailMatchesTailAt(s, i + n);
    TailStartsNonDigit(s, i + n);
    DigitRunAtLeast(s, i, n);
    DigitRunAtMost(s, i, n);
  }

  /** The tail starts with whitespace, `%` or `/`, never with a digit. */
  lemma TailStartsNonDigit(s: string, j: nat)
    requires j <= |s| && TailAt(s, j)
    ensures j < |s| && !IsDigit(s[j])
  {
    var k := SkipSpaces(s, j);
    assert k < |s|;
    assert j < k ==> IsSpace(s[j]);
  }

  lemma DigitRunAtLeast(s: string, i: nat, n: nat)
    requires n <= 3 && i + n <= |s| && AllDigits(s[i..i + n])
    ensures DigitRun(s, i) >= n
  {
    forall k | i <= k < i + n
      ensures IsDigit(s[k])
    {
      assert s[k] == s[i..i + n][k - i];
    }
  }

  lemma DigitRunAtMost(s: string, i: nat, n: nat)
    requires i + n <= |s| && (i + n < |s| ==> !IsDigit(s[i + n]))
    ensures DigitRun(s, i) <= n
  {
  }

  /** The digit group at a position is fixed: at most one length can match. */
  lemma GroupLengthUnique(s: string, i: nat, n: int, n': int)
    requires i <= |s| && GroupMatchesAt(s, i, n) && GroupMatchesAt(s, i, n')
    ensures n == n'
  {
    GroupMatchesIff(s, i, n);
    GroupMatchesIff(s, i, n');
  }

  /** The scanner's match test at `i`: the whole digit run there, followed by
      the tail. */
  predicate ScanMatch(s: string, i: nat)
    requires i <= |s|
  {
    var d := DigitRun(s, i);
    d >= 1 && TailAt(s, i + d)
  }

  /** `ScanMatch` is the pattern matching at `i` with some group. */
  lemma ScanMatchIff(s: string, i: nat)
    requires i <= |s|
    ensures ScanMatch(s, i) <==> exists n :: GroupMatchesAt(s, i, n)
  {
    var d := DigitRun(s, i);
    GroupMatchesIff(s, i, d);
    forall n | GroupMatchesAt(s, i, n)
      ensures ScanMatch(s, i)
    {
      GroupMatchesIff(s, i, n);
    }
  }

  /** The leftmost position at or after `from` where the scanner matches. */
  function SearchFrom(s: string, from: nat): (r: Option<nat>)
    requires from <= |s|
    ensures r.Some? ==> from <= r.value <= |s| && ScanMatch(s, r.value)
    ensures r.Some? ==> forall i :: from <= i < r.value ==> !ScanMatch(s, i)
    ensures r.None? ==> forall i :: from <= i <= |s| ==> !ScanMatch(s, i)
    decreases |s| - from
  {
    if from == |s| then None
    else if ScanMatch(s, from) then Some(from)
    else SearchFrom(s, from + 1)
  }

  // ---------------------------------------------------------------------------
  // The score

  function Pow10(n: nat): nat {
    if n == 0 then 1 else 10 * Pow10(n - 1)
  }

  /** `int(ds)` for a string of ASCII digits. */
  function DigitValue(ds: string): (v: nat)
    requires AllDigits(ds)
    ensures v < Pow10(|ds|)
  {
    if |ds| == 0 then 0
    else
      var init := ds[..|ds| - 1];
      assert forall m :: 0 <= m < |init| ==> init[m] == ds[m];
      DigitValue(init) * 10 + (ds[|ds| - 1] as int - '0' as int)
  }

  /** The score attached to a job match: the number in the first match of the
      score pattern, or 0 when there is none. It is never above 999 and is not
      clamped to 100. */
  function ExtractScore(text: string): (score: nat)
    ensures score <= 999
  {
    match SearchFrom(text, 0)
    case None => 0
    case Some(i) => DigitValue(text[i..i + DigitRun(text, i)])
  }

  /** Where `re.search` finds the pattern, the score is the number in its
      group. */
  lemma SearchResultScored(text: string, i: nat, n: nat)
    requires IsSearchResult(text, i, n)
    ensures ExtractScore(text) == DigitValue(text[i..i + n])
  {
    GroupMatchIsScan(text, i, n);
    forall p | 0 <= p < i
      ensures !ScanMatch(text, p)
    {
      NoGroupNoScan(text, p);
    }
    FirstScanMatch(text, i);
  }

  lemma NoGroupNoScan(s: string, p: nat)
    requires p <= |s| && !GroupMatchesAt(s, p, DigitRun(s, p))
    ensures !ScanMatch(s, p)
  {
    if ScanMatch(s, p) {
      TailAtMatches(s, p + DigitRun(s, p));
    }
  }

  /** When the pattern does not occur anywhere, the score is 0. */
  lemma NoMatchScoresZero(text: string)
    requires NoMatch(text)
    ensures ExtractScore(text) == 0
  {
    var r := SearchFrom(text, 0);
    if r.Some? {
      GroupMatchesIff(text, r.value, DigitRun(text, r.value));
    }
  }

  lemma FirstScanMatch(s: string, i: nat)
    requires i <= |s| && ScanMatch(s, i)
    requires forall p :: 0 <= p < i ==> !ScanMatch(s, p)
    ensures SearchFrom(s, 0) == Some(i)
  {
  }

  lemma ScoreExampleOverlong()
    ensures ExtractScore("1234%") == 234
  {
    var s := "1234%";
    assert DigitRun(s, 0) == 3 && SkipSpaces(s, 3) == 3 && !TailAt(s, 3);
    assert DigitRun(s, 1) == 3 && SkipSpaces(s, 4) == 4 && TailAt(s, 4);
    assert SearchFrom(s, 0) == SearchFrom(s, 1) == Some(1);
    assert s[1..4] == "234";
    assert DigitValue("234") == 234 by {
      assert "234"[..2] == "23" && "23"[..1] == "2" && "2"[..0] == "";
    }
  }

  lemma ScoreExampleNoBoundary()
    ensures ExtractScore("50/1000") == 50
  {
    var s := "50/1000";
    assert s[2..6] == "/100";
    assert s[0..2] == "50";
    ScoreOfLayout(s, 0, 2);
    assert DigitValue("50") == 50 by {
      assert "50"[..1] == "5" && "5"[..0] == "";
    }
  }

  // ---------------------------------------------------------------------------
  // Sections

  const Break: string := "\n\n"

  datatype Sections = Sections(analysis: string, recommendations: string)

  /** The section assignments as the handler makes them: with two blocks the
      analysis is first set to block 0 and then replaced by the whole text. */
  function SplitSections(text: string): (r: Sections)
    ensures |r.analysis| <= |text| && r.analysis == text[..|r.analysis|]
    ensures !Contains(r.recommendations, Break)
    ensures TwoApart(text, Break) ==>
              && |r.analysis| + |r.recommendations| + 2 * |Break| <= |text|
              && text[..|r.analysis| + |r.recommendations| + 2 * |Break|] == r.analysis + Break + r.recommendations + Break
              && !Contains(r.analysis, Break)
    ensures !TwoApart(text, Break) ==> r == Sections(text, "")
    ensures TwoApart(text, Break) ==> Find(text, Break, 0) == Some(|r.analysis|)
  {
    var blocks := Split(text, Break);
    var analysis := if |blocks| >= 2 then blocks[0] else "";
    SplitThreeIffTwoApart(text, Break);
    if |blocks| >= 3 then
      SplitTwoIffContains(text, Break);
      SplitUnfold(text, Break, Find(text, Break, 0).value);
      SplitJoin(text, Break);
      SplitPiecesFree(text, Break);
      assert blocks[1..][1..] == blocks[2..];
      assert text == blocks[0] + Break + (blocks[1] + Break + Join(blocks[2..], Break));
      Sections(analysis, blocks[1])
    else
      Sections(text, "")
  }

  /** Reading a laid-out reply back: a text laid out as analysis, blank line,
      recommendations, blank line, rest (neither part holding a blank line or
      ending in a newline) is read back as exactly those two parts. */
  lemma SectionsOfLayout(a: string, b: string, rest: string)
    requires !Contains(a, Break) && (a == [] || a[|a| - 1] != '\n')
    requires !Contains(b, Break) && (b == [] || b[|b| - 1] != '\n')
    ensures SplitSections(a + Break + b + Break + rest) == Sections(a, b)
  {
    var text := a + Break + b + Break + rest;
    SplitOfLayout(a, b, rest);
    SectionsFromBlocks(text);
  }

  lemma SectionsFromBlocks(text: string)
    requires |Split(text, Break)| >= 3
    ensures SplitSections(text) == Sections(Split(text, Break)[0], Split(text, Break)[1])
  {
  }

  /** With two separate breaks, the recommendations run from the end of the
      first break up to the next break. */
  lemma RecommendationsEndAtNextBreak(text: string)
    requires TwoApart(text, Break)
    ensures var r := SplitSections(text);
            |r.analysis| + |Break| <= |text| && Find(text[|r.analysis| + |Break|..], Break, 0) == Some(|r.recommendations|)
  {
    SplitThreeIffTwoApart(text, Break);
    var p := SecondPieceStart(text, Break);
    var rest := text[p + |Break|..];
    SplitUnfold(text, Break, p);
    SplitTwoIffContains(rest, Break);
    var q := Find(rest, Break, 0).value;
    SplitUnfold(rest, Break, q);
    SectionsFromBlocks(text);
  }

  lemma SplitOfLayout(a: string, b: string, rest: string)
    requires !Contains(a, Break) && (a == [] || a[|a| - 1] != '\n')
    requires !Contains(b, Break) && (b == [] || b[|b| - 1] != '\n')
    ensures var blocks := Split(a + Break + b + Break + rest, Break);
            |blocks| >= 3 && blocks[0] == a && blocks[1] == b
  {
    var tail := b + Break + rest;
    assert a + Break + b + Break + rest == a + Break + tail;
    FirstBlock(a, tail);
    FirstBlock(b, rest);
  }

  /** The first block of `a + Break + tail` is `a`, and the others are the
      blocks of `tail`. */
  lemma FirstBlock(a: string, tail: string)
    requires !Contains(a, Break) && (a == [] || a[|a| - 1] != '\n')
    ensures var text := a + Break + tail;
            && |Split(text, Break)| == 1 + |Split(tail, Break)|
            && Split(text, Break)[0] == a
            && Split(text, Break)[1..] == Split(tail, Break)
  {
    var text := a + Break + tail;
    FindAfterClean(a, tail);
    SplitUnfold(text, Break, |a|);
    assert text[..|a|] == a;
    assert text[|a| + |Break|..] == tail;
  }

  /** The first blank line of `a + Break + rest` is the one after `a`. */
  lemma FindAfterClean(a: string, rest: string)
    requires !Contains(a, Break) && (a == [] || a[|a| - 1] != '\n')
    ensures Find(a + Break + rest, Break, 0) == Some(|a|)
  {
    var s := a + Break + rest;
    assert OccursAt(s, Break, |a|);
    forall k | 0 <= k < |a|
      ensures !OccursAt(s, Break, k)
    {
      if k + 2 <= |a| {
        assert s[k..k + 2] == a[k..k + 2];
        assert !OccursAt(a, Break, k);
      } else {
        assert s[k] == a[|a| - 1];
      }
    }
  }

  /** Exactly two blocks: the analysis is first set to block 0, then replaced
      by the whole text, and there are no recommendations. */
  lemma TwoBlocksKeepWholeText(a: string, b: string)
    requires !Contains(a, Break) && (a == [] || a[|a| - 1] != '\n')
    requires !Contains(b, Break)
    ensures |Split(a + Break + b, Break)| == 2 && Split(a + Break + b, Break)[0] == a
    ensures SplitSections(a + Break + b) == Sections(a + Break + b, "")
  {
    var text := a + Break + b;
    FindAfterClean(a, b);
    SplitUnfold(text, Break, |a|);
    assert text[..|a|] == a;
    assert text[|a| + |Break|..] == b;
    assert Find(b, Break, 0).None?;
    SplitThreeIffTwoApart(text, Break);
  }

  // ---------------------------------------------------------------------------
  // Worked layouts

  /** A text whose first digits are a group of one to three digits directly
      followed by `%` or `/100` scores the value of that group. */
  lemma ScoreOfLayout(s: string, i: nat, n: nat)
    requires 1 <= n <= 3 && i + n <= |s| && AllDigits(s[i..i + n])
    requires forall p :: 0 <= p < i ==> !IsDigit(s[p])
    requires OccursAt(s, "%", i + n) || OccursAt(s, "/100", i + n)
    ensures ExtractScore(s) == DigitValue(s[i..i + n])
  {
    TailOfLayout(s, i + n);
    DigitRunAtLeast(s, i, n);
    DigitRunAtMost(s, i, n);
    forall p | 0 <= p < i
      ensures !ScanMatch(s, p)
    {
      assert DigitRun(s, p) == 0;
    }
    FirstScanMatch(s, i);
  }

  /** `%` or `/100` right at `k` is a tail, and does not start with a digit. */
  lemma TailOfLayout(s: string, k: nat)
    requires OccursAt(s, "%", k) || OccursAt(s, "/100", k)
    ensures k < |s| && !IsDigit(s[k]) && TailAt(s, k)
  {
    if OccursAt(s, "%", k) {
      assert s[k] == s[k..k + 1][0] == '%';
    } else {
      assert s[k] == s[k..k + 4][0] == '/';
      assert s[k + 1] == s[k..k + 4][1] == '1';
      assert s[k + 1..k + 4] == s[k..k + 4][1..];
      assert SkipSpaces(s, k + 1) == k + 1;
    }
    assert SkipSpaces(s, k) == k;
  }

  /** A reply that opens with a score line, then an analysis block, then a
      recommendations block. */
  const SampleReply: string := ScoreLine + Break + "Analysis..." + Break + "Recommendations..."
  const ScoreLine: string := ScoreLabel + "82" + "/100"
  const ScoreLabel: string := "Match score: "

  /** Split as the handler does it, the score line is the analysis and the
      second block the recommendations. */
  lemma SampleReplySections()
    ensures SplitSections(SampleReply) == Sections(ScoreLine, "Analysis...")
  {
    assert '\n' !in ScoreLine && '\n' !in "Analysis...";
    SectionsOfLines(ScoreLine, "Analysis...", "Recommendations...");
  }

  /** The score line of the sample reply scores 82. */
  lemma SampleReplyScore()
    ensures ExtractScore(SampleReply) == 82
  {
    var s := SampleReply;
    assert s[13..15] == "82" && s[15..19] == "/100";
    forall p | 0 <= p < 13
      ensures !IsDigit(s[p])
    {
      assert s[p] == ScoreLabel[p];
      assert ScoreLabel[p] in ScoreLabel;
    }
    ScoreOfLayout(s, 13, 2);
    assert DigitValue("82") == 82 by {
      assert "82"[..1] == "8" && "8"[..0] == "";
    }
  }

  /** Single-line analysis and recommendations are read back as they are. */
  lemma SectionsOfLines(a: string, b: string, rest: string)
    requires '\n' !in a && '\n' !in b
    ensures SplitSections(a + Break + b + Break + rest) == Sections(a, b)
  {
    if Contains(a, Break) {
      BreakNeedsNewline(a, Break);
    }
    if Contains(b, Break) {
      BreakNeedsNewline(b, Break);
    }
    assert a != [] ==> a[|a| - 1] in a;
    assert b != [] ==> b[|b| - 1] in b;
    SectionsOfLayout(a, b, rest);
  }

  /** The job-match record of the upload response. */
  datatype JobMatch = JobMatch(score: nat, analysis: string, recommendations: string)

  /** The record a successful match answer is parsed into. */
  function ParseMatch(text: string): (m: JobMatch)
    ensures m.score <= 999
    ensures |m.analysis| <= |text| && m.analysis == text[..|m.analysis|]
    ensures !Contains(m.recommendations, Break)
  {
    var sections := SplitSections(text);
    JobMatch(ExtractScore(text), sections.analysis, sections.recommendations)
  }

  /** The sample reply, parsed as the handler parses it:
      score 82, the score line as the analysis, and the analysis block as the
      recommendations. */
  lemma SampleReplyParse()
    ensures ParseMatch(SampleReply) == JobMatch(82, ScoreLine, "Analysis...")
  {
    SampleReplyScore();
    SampleReplySections();
  }
}

=== FILE: outcomes.dfy ===
/** Failure-carrying datatypes used throughout the model. */
module Outcomes {

  /** A value that may be absent (Python's `None`, or a missing dictionary key). */
  datatype Option<+T> = None | Some(value: T)

  /** The result of a step that may raise: the value it returns, or the text
      `str(e)` of the exception it raises. */
  datatype Outcome<+T> = Ok(value: T) | Fail(message: string)
}

=== FILE: pdf_query.dfy ===
/** The batch query entry point: answer one question about one PDF, attach the
    pages of the first two retrieved documents, and wrap everything in a
    success/error envelope instead of raising. */
module PdfQuery {
  import opened Outcomes
  import opened Documents
  import opened IndexCache

  /** Index configuration of this entry point: 1000-character windows with a
      200-character overlap, embedded with a small paraphrase model. */
  const ChunkSize: nat := 1000
  const ChunkOverlap: nat := 200
  const QueryConfig: IndexConfig :=
    IndexConfig(CharacterWindows(ChunkSize, ChunkOverlap), NamedModel("sentence-transformers/paraphrase-MiniLM-L3-v2"))

  /** The envelope: on success the answer, the page sources and the raw chain
      output; on any exception only the exception text. */
  datatype QueryResult =
    | Answered(answer: string, sources: set<string>, raw: ChainOutput)
    | Failed(message: string)

  /** The source label of one document: `"Page " + page`, given only when the
      metadata has a `page` entry (so the `unknown` fallback is never used). */
  function PageLabel(d: Doc): (tag: Option<string>)
    ensures tag.Some? <==> "page" in d.metadata
    ensures tag.Some? ==> tag.value == "Page " + d.metadata["page"]
  {
    if "page" in d.metadata then Some("Page " + GetOr(d.metadata, "page", "unknown")) else None
  }

  /** The labels of `docs` in order, skipping documents without a label. */
  function PageLabels(docs: seq<Doc>): (labels: seq<string>)
    ensures |labels| <= |docs|
    ensures forall x :: x in labels <==> exists i :: 0 <= i < |docs| && PageLabel(docs[i]) == Some(x)
  {
    if |docs| == 0 then []
    else
      var rest := PageLabels(docs[1..]);
      assert forall i :: 1 <= i < |docs| ==> docs[i] == docs[1..][i - 1];
      match PageLabel(docs[0])
      case Some(l) => [l] + rest
      case None => rest
  }

  lemma {:induction false} SetOfSeqSize<T>(xs: seq<T>)
    ensures |set x | x in xs| <= |xs|
  {
    if |xs| > 0 {
      SetOfSeqSize(xs[1..]);
      assert (set x | x in xs) == {xs[0]} + (set x | x in xs[1..]);
    }
  }

  /** `list(set(sources))`: the page labels of the first two retrieved
      documents that carry a page, as a set. */
  function PageSources(sourceDocuments: Option<seq<Doc>>): (sources: set<string>)
    ensures |sources| <= 2
    ensures var docs := Inspected(sourceDocuments);
            forall x :: x in sources <==>
              exists i :: 0 <= i < |docs| && "page" in docs[i].metadata && x == "Page " + docs[i].metadata["page"]
  {
    var labels := PageLabels(Inspected(sourceDocuments));
    SetOfSeqSize(labels);
    set x | x in labels
  }

  /** Later documents never contribute a source. */
  lemma SourcesIgnoreLaterDocs(first: seq<Doc>, later: seq<Doc>)
    requires |first| >= 2
    ensures PageSources(Some(first + later)) == PageSources(Some(first))
  {
    assert Inspected(Some(first + later)) == Inspected(Some(first));
  }

  /** When the first two documents are on the same page there is one source. */
  lemma SharedPageOneSource(docs: seq<Doc>)
    requires |docs| >= 2
    requires "page" in docs[0].metadata && "page" in docs[1].metadata
    requires docs[0].metadata["page"] == docs[1].metadata["page"]
    ensures PageSources(Some(docs)) == {"Page " + docs[0].metadata["page"]}
  {
    var inspected := Inspected(Some(docs));
    assert inspected[0] == docs[0] && inspected[1] == docs[1];
  }

  /** The `unknown` fallback never shows: a `Page unknown` source comes only from
      a document whose page entry is literally `unknown`. */
  lemma NoUnknownFallback(sourceDocuments: Option<seq<Doc>>)
    requires "Page unknown" in PageSources(sourceDocuments)
    ensures exists d :: d in Inspected(sourceDocuments) && "page" in d.metadata && d.metadata["page"] == "unknown"
  {
    var docs := Inspected(sourceDocuments);
    var i :| 0 <= i < |docs| && "page" in docs[i].metadata && "Page unknown" == "Page " + docs[i].metadata["page"];
    assert "Page unknown" == "Page " + "unknown";
    assert docs[i].metadata["page"] == "Page unknown"[5..] == "unknown";
  }

  /** Wrap one chain run into the envelope. */
  function Envelope(run: Outcome<ChainOutput>): (r: QueryResult)
    ensures r.Answered? <==> run.Ok?
    ensures r.Answered? ==> r.raw == run.value && r.answer == run.value.result
    ensures r.Answered? ==> r.sources == PageSources(run.value.sourceDocuments)
    ensures r.Failed? ==> r == Failed(run.message)
  {
    match run
    case Ok(out) => Answered(out.result, PageSources(out.sourceDocuments), out)
    case Fail(e) => Failed(e)
  }

  /** A query's envelope together with the cache it leaves behind. */
  datatype QueryReply = QueryReply(result: QueryResult, cache: Cache)

  /** Answer `question` about the PDF at `path`: find or build its index, run
      the chain with the top three passages, and report the first failure as
      an error envelope. The index is stored as soon as it is built, so a
      chain failure after a fresh build still leaves it cached. */
  function QueryPdf(cache: Cache, path: string, question: string, build: Builder, chain: Chain): (r: QueryReply)
    ensures var lookup := LoadOrCreate(cache, path, QueryConfig, build);
            && r.cache == lookup.cache
            && (lookup.index.Fail? ==> r.result == Failed(lookup.index.message))
            && (lookup.index.Ok? ==> r.result == Envelope(chain(lookup.index.value, TopK, question)))
  {
    var lookup := LoadOrCreate(cache, path, QueryConfig, build);
    match lookup.index
    case Fail(e) => QueryReply(Failed(e), lookup.cache)
    case Ok(index) => QueryReply(Envelope(chain(index, TopK, question)), lookup.cache)
  }

  /** Several queries about one PDF, one after the other, threading the cache;
      `builds` counts how often the builder ran. */
  datatype Replies = Replies(results: seq<QueryResult>, cache: Cache, builds: nat)

  function QueryEach(cache: Cache, path: string, questions: seq<string>, build: Builder, chain: Chain): (r: Replies)
    ensures |r.results| == |questions|
    ensures r.builds <= |questions|
    decreases |questions|
  {
    if |questions| == 0 then Replies([], cache, 0)
    else
      var first := QueryPdf(cache, path, questions[0], build, chain);
      var more := QueryEach(first.cache, path, questions[1..], build, chain);
      var built := if CacheKey(path) in cache then 0 else 1;
      Replies([first.result] + more.results, more.cache, built + more.builds)
  }

  /** One step of the batch: the first question's reply, then the rest of the
      batch from the cache that reply leaves. */
  lemma QueryEachStep(cache: Cache, path: string, questions: seq<string>, build: Builder, chain: Chain)
    requires |questions| > 0
    ensures var first := QueryPdf(cache, path, questions[0], build, chain);
            var more := QueryEach(first.cache, path, questions[1..], build, chain);
            var r := QueryEach(cache, path, questions, build, chain);
            && r.results[0] == first.result
            && r.results[1..] == more.results
            && r.cache == more.cache
  {
  }

  /** Resuming a batch part-way: if the replies from position `i` on are those
      of a batch started from `cache`, then reply `i` is the single query from
      `cache` and the rest are a batch started from the cache it leaves. */
  lemma BatchResumes(all: Replies, cache: Cache, path: string, questions: seq<string>, i: nat, build: Builder, chain: Chain)
    requires i < |questions| && |all.results| == |questions|
    requires all.results[i..] == QueryEach(cache, path, questions[i..], build, chain).results
    requires all.cache == QueryEach(cache, path, questions[i..], build, chain).cache
    ensures var reply := QueryPdf(cache, path, questions[i], build, chain);
            && all.results[i] == reply.result
            && all.results[i + 1..] == QueryEach(reply.cache, path, questions[i + 1..], build, chain).results
            && all.cache == QueryEach(reply.cache, path, questions[i + 1..], build, chain).cache
  {
    QueryEachStep(cache, path, questions[i..], build, chain);
    assert questions[i..][1..] == questions[i + 1..];
    assert all.results[i + 1..] == all.results[i..][1..];
  }

  /** With the entry already cached, every query is answered from the stored
      index, the builder never runs and the cache does not change. */
  lemma {:induction false} CachedQueriesReuseIndex(cache: Cache, path: string, questions: seq<string>, build: Builder, chain: Chain)
    requires CacheKey(path) in cache
    ensures var r := QueryEach(cache, path, questions, build, chain);
            && r.cache == cache
            && r.builds == 0
            && forall i :: 0 <= i < |questions| ==> r.results[i] == Envelope(chain(cache[CacheKey(path)], TopK, questions[i]))
    decreases |questions|
  {
    if |questions| > 0 {
      CachedQueriesReuseIndex(cache, path, questions[1..], build, chain);
      var r := QueryEach(cache, path, questions, build, chain);
      var more := QueryEach(cache, path, questions[1..], build, chain);
      assert r.results == [Envelope(chain(cache[CacheKey(path)], TopK, questions[0]))] + more.results;
      assert forall i :: 1 <= i < |questions| ==> questions[i] == questions[1..][i - 1];
    }
  }

  /** Starting from a miss, a successful build happens once: the first query
      stores the index and every query, the first included, uses it. */
  lemma BuildOnceThenReuse(cache: Cache, path: string, questions: seq<string>, build: Builder, chain: Chain)
    requires CacheKey(path) !in cache && |questions| >= 1
    requires build(path, QueryConfig).Ok?
    ensures var index := build(path, QueryConfig).value;
            var r := QueryEach(cache, path, questions, build, chain);
            && r.cache == cache[CacheKey(path) := index]
            && r.builds == 1
            && forall i :: 0 <= i < |questions| ==> r.results[i] == Envelope(chain(index, TopK, questions[i]))
  {
    var index := build(path, QueryConfig).value;
    var stored := cache[CacheKey(path) := index];
    var first := QueryPdf(cache, path, questions[0], build, chain);
    assert first.cache == stored && first.result == Envelope(chain(index, TopK, questions[0]));
    CachedQueriesReuseIndex(stored, path, questions[1..], build, chain);
    var more := QueryEach(stored, path, questions[1..], build, chain);
    var r := QueryEach(cache, path, questions, build, chain);
    assert r == Replies([first.result] + more.results, more.cache, 1 + more.builds);
    forall i | 0 <= i < |questions|
      ensures r.results[i] == Envelope(chain(index, TopK, questions[i]))
    {
      if i > 0 {
        assert r.results[i] == more.results[i - 1];
        assert questions[i] == questions[1..][i - 1];
      }
    }
  }
}

=== FILE: resume_app.dfy ===
/** The resume upload handler of the web application: admit PDF uploads only,
    answer five fixed questions about the resume, optionally compare it with a
    job description and read a score and two sections out of that comparison.
    The same module holds the token estimate used by the two other LLM routes. */
module ResumeApp {
  import opened Outcomes
  import opened Text
  import opened Documents
  import opened IndexCache
  import opened PdfQuery
  import opened MatchParse

  // ---------------------------------------------------------------------------
  // Upload admission

  const AllowedExtensions: set<string> := {"pdf"}

  /** The reference reading of the admission rule: the name ends in a dot
      followed by `pdf` in any mix of cases. */
  predicate HasPdfExtension(filename: string) {
    |filename| >= 4 && filename[|filename| - 4] == '.' && LowerStr(filename[|filename| - 3..]) == "pdf"
  }

  /** A file is admitted when its name has a dot and the text after the last
      dot, lower-cased, is an allowed extension. */
  function AllowedFile(filename: string): (ok: bool)
    ensures ok <==> HasPdfExtension(filename)
  {
    var ext := AfterLast(filename, '.');
    ExtensionAfterLastDot(filename);
    '.' in filename && LowerStr(ext) in AllowedExtensions
  }

  lemma ExtensionAfterLastDot(filename: string)
    ensures '.' in filename && LowerStr(AfterLast(filename, '.')) == "pdf" <==> HasPdfExtension(filename)
  {
    var ext := AfterLast(filename, '.');
    if '.' in filename && LowerStr(ext) == "pdf" {
      assert |ext| == 3;
      assert filename[|filename| - 4] == '.';
    }
    if HasPdfExtension(filename) {
      var n := |filename|;
      var t := filename[n - 3..];
      assert filename[n - 4] == '.';
      forall k | 0 <= k < 3
        ensures t[k] != '.'
      {
        assert Lower(t[k]) == "pdf"[k];
      }
      assert '.' !in t;
      assert filename == filename[..n - 4] + ['.'] + t;
      LastIndexOfJoin(filename[..n - 4], '.', t);
    }
  }

  /** Upper-case extensions pass, and so does a bare `.pdf`. */
  lemma AcceptedNames()
    ensures AllowedFile("cv.PDF") && AllowedFile(".pdf") && AllowedFile("a.b.Pdf")
  {
    assert "cv.PDF"[3..] == "PDF" && ".pdf"[1..] == "pdf" && "a.b.Pdf"[4..] == "Pdf";
    assert LowerStr("PDF") == "pdf" && LowerStr("pdf") == "pdf" && LowerStr("Pdf") == "pdf";
    assert HasPdfExtension("cv.PDF") && HasPdfExtension(".pdf") && HasPdfExtension("a.b.Pdf");
  }

  /** A name without a dot, or with another final extension, is refused. */
  lemma RejectedNames()
    ensures !AllowedFile("pdf") && !AllowedFile("cv.pdf.exe") && !AllowedFile("cv.pdfx")
  {
    assert "cv.pdf.exe"[6] == '.';
    assert "cv.pdfx"[3] == 'p';
  }

  // ---------------------------------------------------------------------------
  // The five category questions

  datatype Question = Question(category: string, text: string)

  /** The questions asked about every resume, in the order they are asked. */
  const Questions: seq<Question> := [
    Question("skills", "What are the key skills mentioned in this resume?"),
    Question("experience", "Summarize the work experience in this resume."),
    Question("education", "What is the educational background in this resume?"),
    Question("projects", "What projects are mentioned in this resume?"),
    Question("summary", "Provide a concise professional summary of this candidate based on the resume.")
  ]

  const CategoryNames: set<string> := {"skills", "experience", "education", "projects", "summary"}

  /** The question texts in asking order. */
  function QuestionTexts(qs: seq<Question>): (texts: seq<string>)
    ensures |texts| == |qs|
    ensures forall i :: 0 <= i < |qs| ==> texts[i] == qs[i].text
  {
    seq(|qs|, i requires 0 <= i < |qs| => qs[i].text)
  }

  /** Every category is asked exactly once. */
  lemma QuestionsCoverCategories()
    ensures forall c :: c in CategoryNames <==> exists i :: 0 <= i < |Questions| && Questions[i].category == c
    ensures DistinctCategories(Questions)
  {
    forall c | c in CategoryNames
      ensures exists i :: 0 <= i < |Questions| && Questions[i].category == c
    {
      if c == "skills" { assert Questions[0].category == c; }
      else if c == "experience" { assert Questions[1].category == c; }
      else if c == "education" { assert Questions[2].category == c; }
      else if c == "projects" { assert Questions[3].category == c; }
      else { assert Questions[4].category == c; }
    }
  }

  /** One category of the summary: the answer and its sources. */
  datatype Entry = Entry(answer: string, sources: set<string>)

  /** The entry a query result becomes: the answer and sources when the query
      succeeded; otherwise a message naming the category and the error, with
      no sources. */
  function CategoryEntry(category: string, r: QueryResult): (e: Entry)
    ensures r.Answered? ==> e == Entry(r.answer, r.sources)
    ensures r.Failed? ==> e.sources == {} && e.answer == "Error analyzing " + category + ": " + r.message
  {
    match r
    case Answered(answer, sources, _) => Entry(answer, sources)
    case Failed(message) => Entry("Error analyzing " + category + ": " + message, {})
  }

  /** No category is asked twice. */
  predicate DistinctCategories(qs: seq<Question>) {
    forall i, j :: 0 <= i < j < |qs| ==> qs[i].category != qs[j].category
  }

  /** The summary holds exactly the entries of the first `i` questions. */
  ghost predicate Recorded(summary: map<string, Entry>, qs: seq<Question>, results: seq<QueryResult>, i: nat)
    requires i <= |qs| && i <= |results|
  {
    && (forall c :: c in summary <==> exists j :: 0 <= j < i && qs[j].category == c)
    && (forall j :: 0 <= j < i ==> summary[qs[j].category] == CategoryEntry(qs[j].category, results[j]))
  }

  lemma RecordStep(summary: map<string, Entry>, qs: seq<Question>, results: seq<QueryResult>, i: nat)
    requires i < |qs| && i < |results| && DistinctCategories(qs)
    requires Recorded(summary, qs, results, i)
    ensures Recorded(summary[qs[i].category := CategoryEntry(qs[i].category, results[i])], qs, results, i + 1)
  {
    var next := summary[qs[i].category := CategoryEntry(qs[i].category, results[i])];
    forall j | 0 <= j < i
      ensures next[qs[j].category] == CategoryEntry(qs[j].category, results[j])
    {
      assert qs[j].category != qs[i].category;
    }
  }

  /** Ask every question about the saved file, in order, threading the cache
      through the queries, and record one entry per category. The entries are
      those of the batch queries `QueryEach` over the question texts. */
  method AnalyzeCategories(qs: seq<Question>, cache: Cache, path: string, build: Builder, chain: Chain)
    returns (summary: map<string, Entry>, after: Cache)
    requires DistinctCategories(qs)
    ensures forall c :: c in summary <==> exists i :: 0 <= i < |qs| && qs[i].category == c
    ensures var all := QueryEach(cache, path, QuestionTexts(qs), build, chain);
            && after == all.cache
            && forall i :: 0 <= i < |qs| ==> summary[qs[i].category] == CategoryEntry(qs[i].category, all.results[i])
  {
    var texts := QuestionTexts(qs);
    ghost var all := QueryEach(cache, path, texts, build, chain);
    summary := map[];
    after := cache;
    var i := 0;
    while i < |qs|
      invariant 0 <= i <= |qs|
      invariant all.results[i..] == QueryEach(after, path, texts[i..], build, chain).results
      invariant all.cache == QueryEach(after, path, texts[i..], build, chain).cache
      invariant Recorded(summary, qs, all.results, i)
    {
      var reply := QueryPdf(after, path, qs[i].text, build, chain);
      BatchResumes(all, after, path, texts, i, build, chain);
      RecordStep(summary, qs, all.results, i);
      summary := summary[qs[i].category := CategoryEntry(qs[i].category, reply.result)];
      after := reply.cache;
      i := i + 1;
    }
  }

  /** When the file was indexed before, every category entry is read from the
      stored index and the cache is left as it was. */
  lemma CategoriesFromStoredIndex(cache: Cache, path: string, build: Builder, chain: Chain)
    requires CacheKey(path) in cache
    ensures var all := QueryEach(cache, path, QuestionTexts(Questions), build, chain);
            && all.cache == cache && all.builds == 0
            && forall i :: 0 <= i < |Questions| ==>
                 CategoryEntry(Questions[i].category, all.results[i])
                 == CategoryEntry(Questions[i].category, Envelope(chain(cache[CacheKey(path)], TopK, Questions[i].text)))
  {
    CachedQueriesReuseIndex(cache, path, QuestionTexts(Questions), build, chain);
  }

  /** A fresh upload builds its index once, on the first question, and the
      five answers all come from that index. */
  lemma CategoriesBuildOnce(cache: Cache, path: string, build: Builder, chain: Chain)
    requires CacheKey(path) !in cache && build(path, QueryConfig).Ok?
    ensures var index := build(path, QueryConfig).value;
            var all := QueryEach(cache, path, QuestionTexts(Questions), build, chain);
            && all.cache == cache[CacheKey(path) := index] && all.builds == 1
            && forall i :: 0 <= i < |Questions| ==>
                 CategoryEntry(Questions[i].category, all.results[i])
                 == CategoryEntry(Questions[i].category, Envelope(chain(index, TopK, Questions[i].text)))
  {
    BuildOnceThenReuse(cache, path, QuestionTexts(Questions), build, chain);
  }

  // ---------------------------------------------------------------------------
  // Job match

  const Indent: string := "            "

  /** The comparison prompt: the skills, experience, education and projects
      answers and the stripped job description, laid out as the handler's
      template lays them out. */
  function MatchPrompt(skills: string, experience: string, education: string, projects: string, jobDescription: string): string
  {
    Interleave(PromptTemplate, [skills, experience, education, projects, jobDescription])
  }

  /** The fixed text around the five holes of the comparison prompt. */
  const PromptTemplate: seq<string> := [
    "\n" + Indent + "Compare the following resume summary with the job description:\n\n" + Indent + "Resume Summary:\n" + Indent + "Skills: ",
    "\n" + Indent + "Experience: ",
    "\n" + Indent + "Education: ",
    "\n" + Indent + "Projects: ",
    "\n\n" + Indent + "Job Description:\n" + Indent,
    "\n\n" + Indent + "Provide:\n"
      + Indent + "1. A match score from 0-100 indicating how well the candidate matches the job requirements\n"
      + Indent + "2. A brief analysis of the match, highlighting strengths and gaps\n"
      + Indent + "3. Recommendations for the candidate to improve their match for this position\n"
      + Indent]

  /** The job description and the four answers appear in the prompt verbatim. */
  lemma MatchPromptCarriesInputs(skills: string, experience: string, education: string, projects: string, jobDescription: string)
    ensures var p := MatchPrompt(skills, experience, education, projects, jobDescription);
            && Contains(p, jobDescription)
            && Contains(p, skills) && Contains(p, experience) && Contains(p, education) && Contains(p, projects)
  {
    var values := [skills, experience, education, projects, jobDescription];
    assert values[0] == skills && values[1] == experience && values[2] == education;
    assert values[3] == projects && values[4] == jobDescription;
  }

  /** `t[0] + v[0] + t[1] + ... + v[n-1] + t[n]`: a template with its holes
      filled; every value appears in the result. */
  function Interleave(template: seq<string>, values: seq<string>): (r: string)
    requires |template| == |values| + 1
    ensures forall i :: 0 <= i < |values| ==> Contains(r, values[i])
    decreases |values|
  {
    if |values| == 0 then template[0]
    else
      var rest := Interleave(template[1..], values[1..]);
      ContainsInfix(template[0], values[0], rest);
      forall i | 1 <= i < |values|
        ensures Contains(template[0] + values[0] + rest, values[i])
      {
        assert values[i] == values[1..][i - 1];
        ContainsInSuffix(template[0] + values[0], rest, values[i]);
      }
      template[0] + values[0] + rest
  }

  /** The job-match record: zeros and empty sections unless the comparison
      query succeeded, in which case its answer is parsed. */
  function MatchAnalysis(r: QueryResult): (m: JobMatch)
    ensures r.Failed? ==> m == JobMatch(0, "", "")
    ensures r.Answered? ==> m == ParseMatch(r.answer)
  {
    match r
    case Failed(_) => JobMatch(0, "", "")
    case Answered(answer, _, _) => ParseMatch(answer)
  }

  // ---------------------------------------------------------------------------
  // The upload response

  const UploadFolder: string := "uploads"

  /** The summary of an accepted upload: one entry per category and, when a
      job description was given, the job-match record. */
  datatype Summary = Summary(categories: map<string, Entry>, jobMatch: Option<JobMatch>)

  datatype Response = Rejected(message: string) | Analyzed(summary: Summary)

  /** The four categories the comparison prompt reads are present. */
  predicate PromptAnswersPresent(categories: map<string, Entry>) {
    "skills" in categories && "experience" in categories && "education" in categories && "projects" in categories
  }

  /** The comparison step: the prompt built from the skills, experience,
      education and projects answers and the description is asked about the
      saved file like any other question, and its answer parsed. */
  method CompareWithJob(categories: map<string, Entry>, description: string, path: string,
                        cache: Cache, build: Builder, chain: Chain)
    returns (m: JobMatch, after: Cache)
    requires PromptAnswersPresent(categories)
    ensures var prompt := MatchPrompt(categories["skills"].answer, categories["experience"].answer,
                                      categories["education"].answer, categories["projects"].answer, description);
            var reply := QueryPdf(cache, path, prompt, build, chain);
            && after == reply.cache
            && (reply.result.Failed? ==> m == JobMatch(0, "", ""))
            && (reply.result.Answered? ==> m == ParseMatch(reply.result.answer))
    ensures m.score <= 999
  {
    var prompt := MatchPrompt(categories["skills"].answer, categories["experience"].answer,
                              categories["education"].answer, categories["projects"].answer, description);
    var reply := QueryPdf(cache, path, prompt, build, chain);
    m := MatchAnalysis(reply.result);
    after := reply.cache;
  }

  /** The job-match record is produced exactly when the stripped description
      is not empty; no query is made otherwise. */
  method MatchIfDescribed(categories: map<string, Entry>, jobDescription: string, path: string,
                          cache: Cache, build: Builder, chain: Chain)
    returns (jobMatch: Option<JobMatch>, after: Cache)
    requires PromptAnswersPresent(categories)
    ensures jobMatch.Some? <==> Strip(jobDescription) != ""
    ensures jobMatch.None? ==> after == cache
    ensures jobMatch.Some? ==>
              var prompt := MatchPrompt(categories["skills"].answer, categories["experience"].answer,
                                        categories["education"].answer, categories["projects"].answer,
                                        Strip(jobDescription));
              var reply := QueryPdf(cache, path, prompt, build, chain);
              after == reply.cache && jobMatch.value == MatchAnalysis(reply.result)
  {
    var description := Strip(jobDescription);
    if description == "" {
      return None, cache;
    }
    var m;
    m, after := CompareWithJob(categories, description, path, cache, build, chain);
    jobMatch := Some(m);
  }

  /** A job-match record, when present, is the parse of the reply to the
      comparison prompt built from the summary's answers and the stripped
      description, asked against `before` (the cache after the five category
      queries), and `after` is the cache that query leaves. */
  predicate MatchFromAnswers(summary: Summary, jobDescription: string, before: Cache, path: string,
                             build: Builder, chain: Chain, after: Cache)
  {
    var c := summary.categories;
    summary.jobMatch.Some? ==>
      && PromptAnswersPresent(c)
      && var prompt := MatchPrompt(c["skills"].answer, c["experience"].answer, c["education"].answer,
                                   c["projects"].answer, Strip(jobDescription));
         var reply := QueryPdf(before, path, prompt, build, chain);
         after == reply.cache && summary.jobMatch.value == MatchAnalysis(reply.result)
  }

  /** The analysis of an admitted upload saved at `path`: the five category
      entries, then, when the stripped job description is not empty, one more
      query comparing the first four answers with it. */
  method AnalyzeUpload(path: string, jobDescription: string, cache: Cache, build: Builder, chain: Chain)
    returns (summary: Summary, after: Cache)
    ensures summary.categories.Keys == CategoryNames
    ensures var all := QueryEach(cache, path, QuestionTexts(Questions), build, chain);
            forall i :: 0 <= i < |Questions| ==>
              summary.categories[Questions[i].category] == CategoryEntry(Questions[i].category, all.results[i])
    ensures summary.jobMatch.Some? <==> Strip(jobDescription) != ""
    ensures var all := QueryEach(cache, path, QuestionTexts(Questions), build, chain);
            summary.jobMatch.None? ==> after == all.cache
    ensures summary.jobMatch.Some? ==> summary.jobMatch.value.score <= 999
    ensures MatchFromAnswers(summary, jobDescription, QueryEach(cache, path, QuestionTexts(Questions), build, chain).cache,
                             path, build, chain, after)
  {
    QuestionsCoverCategories();
    var categories;
    categories, after := AnalyzeCategories(Questions, cache, path, build, chain);
    assert categories.Keys == CategoryNames;
    var jobMatch;
    jobMatch, after := MatchIfDescribed(categories, jobDescription, path, after, build, chain);
    summary := Summary(categories, jobMatch);
  }

  /** The upload handler. `fileField` is the `resume` file field of the form
      (absent, or present with its file name); `jobDescription` the optional
      form field; `savedName` the unique name the file is saved under in the
      upload folder. */
  method UploadResume(fileField: Option<string>, jobDescription: Option<string>, savedName: string,
                      cache: Cache, build: Builder, chain: Chain)
    returns (response: Response, after: Cache)
    ensures fileField.None? ==> response == Rejected("No file part")
    ensures fileField == Some("") ==> response == Rejected("No selected file")
    ensures fileField.Some? && fileField.value != "" && !AllowedFile(fileField.value) ==>
              response == Rejected("Only PDF files are allowed")
    ensures response.Analyzed? <==> fileField.Some? && fileField.value != "" && AllowedFile(fileField.value)
    ensures response.Rejected? ==> after == cache
    ensures response.Analyzed? ==> response.summary.categories.Keys == CategoryNames
    ensures response.Analyzed? ==>
              (response.summary.jobMatch.Some? <==> jobDescription.Some? && Strip(jobDescription.value) != "")
    ensures var path := UploadFolder + "/" + savedName;
            var all := QueryEach(cache, path, QuestionTexts(Questions), build, chain);
            response.Analyzed? ==> forall i :: 0 <= i < |Questions| ==>
              response.summary.categories[Questions[i].category] == CategoryEntry(Questions[i].category, all.results[i])
    ensures var path := UploadFolder + "/" + savedName;
            response.Analyzed? && response.summary.jobMatch.None? ==>
              after == QueryEach(cache, path, QuestionTexts(Questions), build, chain).cache
    ensures var path := UploadFolder + "/" + savedName;
            response.Analyzed? && jobDescription.Some? ==>
              MatchFromAnswers(response.summary, jobDescription.value,
                               QueryEach(cache, path, QuestionTexts(Questions), build, chain).cache, path, build, chain, after)
  {
    if fileField.None? {
      return Rejected("No file part"), cache;
    }
    var filename := fileField.value;
    if filename == "" {
      return Rejected("No selected file"), cache;
    }
    if !AllowedFile(filename) {
      return Rejected("Only PDF files are allowed"), cache;
    }
    var description := if jobDescription.Some? then jobDescription.value else "";
    assert Strip("") == "";
    var summary;
    summary, after := AnalyzeUpload(UploadFolder + "/" + savedName, description, cache, build, chain);
    response := Analyzed(summary);
  }

  /** The saved file's cache entry is named after the saved name alone. */
  lemma UploadCacheKey(savedName: string)
    requires '/' !in savedName
    ensures CacheKey(UploadFolder + "/" + savedName) == KeyPrefix + savedName + KeySuffix
  {
    BasenameOfJoin(UploadFolder, savedName);
  }

  // ---------------------------------------------------------------------------
  // Token accounting of the two LLM routes

  /** The token estimate recorded for a prompt: a quarter of its length,
      rounded down, but at least one. */
  function TokenEstimate(prompt: string): (n: nat)
    ensures n >= 1
    ensures |prompt| >= 4 ==> 4 * n <= |prompt| < 4 * n + 4
    ensures |prompt| < 4 ==> n == 1
  {
    if |prompt| / 4 >= 1 then |prompt| / 4 else 1
  }
}

=== FILE: text.dfy ===
/** The string operations the handlers rely on, restricted to ASCII:
    Python's `str.isspace` (also regex `\s`), `str.lower`, `\d`, `str.strip()`,
    `str.rsplit(c, 1)` and `str.split(sep)`. */
module Text {
  import opened Outcomes

  /** ASCII whitespace as Python sees it: tab through carriage return,
      the separators 0x1C..0x1F, and the space. */
  predicate IsSpace(c: char) {
    var n := c as int;
    (9 <= n <= 13) || (28 <= n <= 32)
  }

  predicate IsDigit(c: char) {
    '0' <= c <= '9'
  }

  predicate AllDigits(s: string) {
    forall i :: 0 <= i < |s| ==> IsDigit(s[i])
  }

  predicate Blank(s: string) {
    forall i :: 0 <= i < |s| ==> IsSpace(s[i])
  }

  /** ASCII `str.lower` on one character. */
  function Lower(c: char): char {
    if 'A' <= c <= 'Z' then (c as int + 32) as char else c
  }

  function LowerStr(s: string): (r: string)
    ensures |r| == |s|
    ensures forall i :: 0 <= i < |s| ==> r[i] == Lower(s[i])
  {
    seq(|s|, i requires 0 <= i < |s| => Lower(s[i]))
  }

  // ---------------------------------------------------------------------------
  // strip

  /** Drops leading whitespace. */
  function StripStart(s: string): (r: string)
    ensures |r| <= |s| && r == s[|s| - |r|..]
    ensures Blank(s[..|s| - |r|])
    ensures r != [] ==> !IsSpace(r[0])
  {
    if |s| > 0 && IsSpace(s[0]) then
      var r := StripStart(s[1..]);
      assert s[1..][..|s| - 1 - |r|] == s[1..|s| - |r|];
      r
    else s
  }

  /** Drops trailing whitespace. */
  function StripEnd(s: string): (r: string)
    ensures |r| <= |s| && r == s[..|r|]
    ensures Blank(s[|r|..])
    ensures r != [] ==> !IsSpace(r[|r| - 1])
  {
    if |s| > 0 && IsSpace(s[|s| - 1]) then
      var init := s[..|s| - 1];
      var r := StripEnd(init);
      assert init[..|r|] == s[..|r|];
      assert s[|r|..] == init[|r|..] + [s[|s| - 1]];
      r
    else s
  }

  /** Python's `str.strip()` with no argument: the text between the leading and
      the trailing whitespace. It is empty exactly when `s` is all whitespace. */
  function Strip(s: string): (r: string)
    ensures r == [] <==> Blank(s)
    ensures r != [] ==> !IsSpace(r[0]) && !IsSpace(r[|r| - 1])
    ensures exists a, b :: 0 <= a <= b <= |s| && r == s[a..b] && Blank(s[..a]) && Blank(s[b..])
  {
    var t := StripStart(s);
    var r := StripEnd(t);
    StripBlank(s, t, r);
    StripCuts(s, t, r);
    r
  }

  /** A prefix of a suffix of `s`, cut off by blanks on both sides, is a slice
      of `s` between two blank runs. */
  lemma StripCuts(s: string, t: string, r: string)
    requires |t| <= |s| && t == s[|s| - |t|..] && Blank(s[..|s| - |t|])
    requires |r| <= |t| && r == t[..|r|] && Blank(t[|r|..])
    ensures exists a :: 0 <= a && a + |r| <= |s| && r == s[a..a + |r|] && Blank(s[..a]) && Blank(s[a + |r|..])
  {
    var a := |s| - |t|;
    SuffixSlices(s, a, |r|);
    assert a + |r| <= |s| && r == s[a..a + |r|] && Blank(s[..a]) && Blank(s[a + |r|..]);
  }

  lemma SuffixSlices(s: string, a: nat, n: nat)
    requires a + n <= |s|
    ensures s[a..][..n] == s[a..a + n] && s[a..][n..] == s[a + n..]
  {
  }

  lemma StripBlank(s: string, t: string, r: string)
    requires t == StripStart(s) && r == StripEnd(t)
    ensures r == [] <==> Blank(s)
    ensures r != [] ==> !IsSpace(r[0])
  {
    var cut := |s| - |t|;
    if r == [] {
      assert Blank(t[|r|..]);
      assert t == [];
      assert s[..cut] == s;
    }
    if r != [] {
      assert r[0] == t[0];
    }
  }

  // ---------------------------------------------------------------------------
  // rsplit(c, 1)

  /** The position of the last `c` in `s`, if any (`s.rfind(c)`). */
  function LastIndexOf(s: string, c: char): (r: Option<nat>)
    ensures r.None? <==> c !in s
    ensures r.Some? ==> r.value < |s| && s[r.value] == c && c !in s[r.value + 1..]
  {
    if |s| == 0 then None
    else if s[|s| - 1] == c then Some(|s| - 1)
    else
      var r := LastIndexOf(s[..|s| - 1], c);
      if r.Some? then
        assert s[r.value + 1..] == s[..|s| - 1][r.value + 1..] + [s[|s| - 1]];
        r
      else
        assert s == s[..|s| - 1] + [s[|s| - 1]];
        r
  }

  /** The text after the last `c`, or all of `s` when there is none: the last
      field of `s.rsplit(c, 1)`. It is the longest suffix of `s` free of `c`. */
  function AfterLast(s: string, c: char): (r: string)
    ensures c !in r
    ensures |r| <= |s| && r == s[|s| - |r|..]
    ensures |r| < |s| ==> s[|s| - |r| - 1] == c
  {
    match LastIndexOf(s, c)
    case None => s
    case Some(i) => s[i + 1..]
  }

  /** In `a + [c] + b` with no `c` in `b`, the last `c` is the one after `a`. */
  lemma {:induction false} LastIndexOfJoin(a: string, c: char, b: string)
    requires c !in b
    ensures LastIndexOf(a + [c] + b, c) == Some(|a|)
    ensures AfterLast(a + [c] + b, c) == b
  {
    var s := a + [c] + b;
    if b != [] {
      assert s[..|s| - 1] == a + [c] + b[..|b| - 1];
      assert s[|s| - 1] == b[|b| - 1];
      LastIndexOfJoin(a, c, b[..|b| - 1]);
    }
    assert s[|a| + 1..] == b;
  }

  // ---------------------------------------------------------------------------
  // split(sep)

  predicate OccursAt(s: string, sep: string, i: int) {
    0 <= i && i + |sep| <= |s| && s[i..i + |sep|] == sep
  }

  predicate Contains(s: string, sep: string) {
    exists i :: 0 <= i <= |s| && OccursAt(s, sep, i)
  }

  /** Two occurrences of `sep` in `s` that do not overlap. */
  ghost predicate TwoApart(s: string, sep: string) {
    exists i, j :: OccursAt(s, sep, i) && OccursAt(s, sep, j) && i + |sep| <= j
  }

  /** Whatever surrounds it, `x` occurs in `a + x + b`. */
  lemma ContainsInfix(a: string, x: string, b: string)
    ensures Contains(a + x + b, x)
  {
    var s := a + x + b;
    assert s[|a|..|a| + |x|] == x;
    assert OccursAt(s, x, |a|);
  }

  /** An occurrence in `b` is an occurrence in `a + b`. */
  lemma ContainsInSuffix(a: string, b: string, x: string)
    requires Contains(b, x)
    ensures Contains(a + b, x)
  {
    var i :| 0 <= i <= |b| && OccursAt(b, x, i);
    assert (a + b)[|a| + i..|a| + i + |x|] == b[i..i + |x|];
    assert OccursAt(a + b, x, |a| + i);
  }

  /** The leftmost occurrence of `sep` at or after `from` (`s.find(sep, from)`). */
  function Find(s: string, sep: string, from: nat): (r: Option<nat>)
    requires from <= |s|
    ensures r.Some? ==> from <= r.value && OccursAt(s, sep, r.value)
    ensures r.Some? ==> forall k :: from <= k < r.value ==> !OccursAt(s, sep, k)
    ensures r.None? ==> forall k :: from <= k ==> !OccursAt(s, sep, k)
    decreases |s| - from
  {
    if from + |sep| > |s| then None
    else if s[from..from + |sep|] == sep then Some(from)
    else Find(s, sep, from + 1)
  }

  /** Python's `s.split(sep)` for a non-empty separator: cut at each leftmost,
      non-overlapping occurrence. */
  function Split(s: string, sep: string): (pieces: seq<string>)
    requires |sep| > 0
    ensures |pieces| >= 1
    ensures |pieces[0]| <= |s| && pieces[0] == s[..|pieces[0]|]
    decreases |s|
  {
    match Find(s, sep, 0)
    case None => [s]
    case Some(i) => [s[..i]] + Split(s[i + |sep|..], sep)
  }

  /** `sep.join(pieces)`. */
  function Join(pieces: seq<string>, sep: string): string
    requires |pieces| >= 1
  {
    if |pieces| == 1 then pieces[0] else pieces[0] + sep + Join(pieces[1..], sep)
  }

  lemma OccursInSuffix(s: string, sep: string, a: nat, k: int)
    requires a <= |s| && 0 <= k
    ensures OccursAt(s[a..], sep, k) <==> OccursAt(s, sep, a + k)
  {
    if k + |sep| <= |s| - a {
      assert s[a..][k..k + |sep|] == s[a + k..a + k + |sep|];
    }
  }

  lemma OccursInPrefix(s: string, sep: string, b: nat, k: int)
    requires b <= |s| && 0 <= k && k + |sep| <= b
    ensures OccursAt(s[..b], sep, k) <==> OccursAt(s, sep, k)
  {
    assert s[..b][k..k + |sep|] == s[k..k + |sep|];
  }

  /** Joining the pieces back with the separator gives the original text. */
  lemma {:induction false} SplitJoin(s: string, sep: string)
    requires |sep| > 0
    ensures Join(Split(s, sep), sep) == s
    decreases |s|
  {
    var r := Find(s, sep, 0);
    if r.Some? {
      var i := r.value;
      var rest := s[i + |sep|..];
      SplitJoin(rest, sep);
      SplitUnfold(s, sep, i);
      var pieces := Split(s, sep);
      assert Join(pieces, sep) == pieces[0] + sep + Join(pieces[1..], sep);
      CutAround(s, sep, i);
    }
  }

  /** An occurrence cuts the text into before, separator, after. */
  lemma CutAround(s: string, sep: string, i: nat)
    requires OccursAt(s, sep, i)
    ensures s == s[..i] + sep + s[i + |sep|..]
  {
    assert s == s[..i] + s[i..i + |sep|] + s[i + |sep|..];
  }

  /** No piece of a split contains the separator. */
  lemma {:induction false} SplitPiecesFree(s: string, sep: string)
    requires |sep| > 0
    ensures forall k :: 0 <= k < |Split(s, sep)| ==> !Contains(Split(s, sep)[k], sep)
    decreases |s|
  {
    var r := Find(s, sep, 0);
    if r.Some? {
      var i := r.value;
      var rest := s[i + |sep|..];
      SplitPiecesFree(rest, sep);
      SplitUnfold(s, sep, i);
      BeforeFirstCutFree(s, sep, i);
      var pieces := Split(s, sep);
      forall k | 1 <= k < |pieces|
        ensures !Contains(pieces[k], sep)
      {
        assert pieces[k] == pieces[1..][k - 1];
      }
    }
  }

  /** The text before the first occurrence does not contain the separator. */
  lemma BeforeFirstCutFree(s: string, sep: string, i: nat)
    requires |sep| > 0 && i <= |s| && Find(s, sep, 0) == Some(i)
    ensures !Contains(s[..i], sep)
  {
    forall k | 0 <= k <= i
      ensures !OccursAt(s[..i], sep, k)
    {
      if k + |sep| <= i {
        OccursInPrefix(s, sep, i, k);
      }
    }
  }

  /** A split has at least two pieces exactly when the separator occurs. */
  lemma SplitTwoIffContains(s: string, sep: string)
    requires |sep| > 0
    ensures |Split(s, sep)| >= 2 <==> Find(s, sep, 0).Some?
  {
  }

  lemma SplitUnfold(s: string, sep: string, p: nat)
    requires |sep| > 0 && p <= |s| && Find(s, sep, 0) == Some(p)
    ensures |Split(s, sep)| == 1 + |Split(s[p + |sep|..], sep)|
    ensures Split(s, sep)[0] == s[..p]
    ensures Split(s, sep)[1..] == Split(s[p + |sep|..], sep)
  {
  }

  /** A split has at least three pieces exactly when the separator occurs
      twice without overlap. */
  lemma SplitThreeIffTwoApart(s: string, sep: string)
    requires |sep| > 0
    ensures |Split(s, sep)| >= 3 <==> TwoApart(s, sep)
  {
    if |Split(s, sep)| >= 3 {
      ThreePiecesTwoApart(s, sep);
    }
    if TwoApart(s, sep) {
      var i, j :| OccursAt(s, sep, i) && OccursAt(s, sep, j) && i + |sep| <= j;
      TwoApartThreePieces(s, sep, i, j);
    }
  }

  lemma ThreePiecesTwoApart(s: string, sep: string)
    requires |sep| > 0 && |Split(s, sep)| >= 3
    ensures TwoApart(s, sep)
  {
    var p := SecondPieceStart(s, sep);
    var rest := s[p + |sep|..];
    SplitTwoIffContains(rest, sep);
    var q := Find(rest, sep, 0).value;
    TwoCutsApart(s, sep, p, q);
  }

  /** An occurrence at `p` and another `q` places after its end are apart. */
  lemma TwoCutsApart(s: string, sep: string, p: nat, q: nat)
    requires p + |sep| <= |s| && OccursAt(s, sep, p) && OccursAt(s[p + |sep|..], sep, q)
    ensures TwoApart(s, sep)
  {
    OccursInSuffix(s, sep, p + |sep|, q);
    TwoApartAt(s, sep, p, p + |sep| + q);
  }

  /** Where a split of several pieces cuts first, and what remains to split. */
  lemma SecondPieceStart(s: string, sep: string) returns (p: nat)
    requires |sep| > 0 && |Split(s, sep)| >= 2
    ensures Find(s, sep, 0) == Some(p) && OccursAt(s, sep, p)
    ensures p + |sep| <= |s| && |Split(s[p + |sep|..], sep)| == |Split(s, sep)| - 1
  {
    SplitTwoIffContains(s, sep);
    p := Find(s, sep, 0).value;
    SplitUnfold(s, sep, p);
  }

  lemma TwoApartAt(s: string, sep: string, i: int, j: int)
    requires OccursAt(s, sep, i) && OccursAt(s, sep, j) && i + |sep| <= j
    ensures TwoApart(s, sep)
  {
  }

  lemma TwoApartThreePieces(s: string, sep: string, i: int, j: int)
    requires |sep| > 0 && OccursAt(s, sep, i) && OccursAt(s, sep, j) && i + |sep| <= j
    ensures |Split(s, sep)| >= 3
  {
    var p := FirstCutBefore(s, sep, i);
    var rest := s[p + |sep|..];
    OccursInSuffix(s, sep, p + |sep|, j - p - |sep|);
    SplitTwoIffContains(rest, sep);
    SplitUnfold(s, sep, p);
  }

  /** The first cut comes no later than any occurrence. */
  lemma FirstCutBefore(s: string, sep: string, i: int) returns (p: nat)
    requires OccursAt(s, sep, i)
    ensures Find(s, sep, 0) == Some(p) && p <= i && p + |sep| <= |s|
  {
    p := Find(s, sep, 0).value;
  }

  /** A blank-line separator can only occur in a text that has a newline. */
  lemma BreakNeedsNewline(s: string, sep: string)
    requires |sep| > 0 && sep[0] == '\n' && Contains(s, sep)
    ensures '\n' in s
  {
    var k :| 0 <= k <= |s| && OccursAt(s, sep, k);
    assert s[k] == sep[0];
  }
}
